=== FILE: README.md ===
# WorkCrud job board, modelled in Dafny

WorkCrud is a job board made of static pages. There are three pages: a landing page (`auth.js`), a candidate dashboard (`candidato.js`) and a company dashboard (`empresa.js`). They talk to a json-server REST backend holding three collections: `usuarios`, `ofertas` and `postulaciones`. Every request of the two dashboards goes through one helper, `fetchData` (`utils.js`). The landing page calls `fetch` directly, against its own copy of the base URL.

This project models the logic inside the pages' event handlers. Each handler becomes a pure function from the store and the form inputs to the new store plus what the page reports:

- `Store`: the three collections as one value, with the backend's equality filters and its by-id PATCH/PUT/DELETE, applied to every record with the id. A write to an id no record has answers 404 and changes nothing.
- `Formats`: the comma list used for requirements and skills, the work-experience list, and the applicants-panel heading. Each comes with its parser, its serialiser and the round trip between them.
- `Candidate`: the offer search, applying to an offer, and the profile form.
- `Company`: publishing and editing offers through the editing pointer `currentEditingOfferId`, closing and re-activating offers, the cascade delete, and application decisions.
- `Auth`: registration, login, the role-based redirect and logout, over a session map.
- `Router`: `showSection`, the navbar click handler and the loader dispatch.
- `Http`: the URL `fetchData` requests for the dashboards, the message it throws on a non-ok response, and its result.
- `Text` and `Seqs`: the JavaScript string and array primitives the handlers use. These are `trim`, `toLowerCase`, `includes`, `indexOf`, `replace`, `slice`, `split`, `join`, the decimal rendering of numbers, `filter`, `map` and `find`.
- `Wrappers`: the `Option` and `Result` types.

The inputs a browser would supply are parameters:

- the answer to `confirm()`, as a bool
- today's date
- the ids json-server would generate
- the page's elements
- the backend behind `fetchData`, as a function from URL to response (the landing page's requests are modelled directly on the store)

Behaviours of the code a reader might not expect, which the model follows:

- `applyToOffer` does not check that the offer is active, so `ApplyToOffer` accepts any offer id.
- `editOffer` sets the editing pointer before fetching the offer. The pointer therefore stays set when the fetch fails.
- The filter callback of `loadJobOffers` throws when the resolved company has no `nombreEmpresa`. The search then shows its error state, modelled as `None`.
- The pointer is tested for truthiness, so an empty id selects the create branch.
- A link without `data-section` routes to `"undefinedSection"`.

## Model

| member | source | states |
|---|---|---|
| Http.RequestUrl | js/utils.js:13 | The request URL is the base URL, a slash, and the endpoint, and the endpoint can be read back from it |
| Http.RequestUrlInjective | js/utils.js:13 | Distinct endpoints are requested at distinct URLs |
| Http.ErrorMessage | js/utils.js:14-26 | The message always starts with `HTTP error! status: <status>`. An empty body adds nothing. A JSON body whose `message` property is truthy adds ` - ` and that property as a template literal renders it (` - 42` for the number 42). Any other body (not JSON, `null`, a falsy or missing `message`) adds ` - <body>` |
| Http.ErrorMessageNamesStatus | js/utils.js:17 | The decimal digits right after the prefix read back as the status and are followed by the end of the message or a space |
| Http.FetchData | js/utils.js:11-33 | Succeeds exactly on an ok response with a JSON payload and returns that payload unchanged. A non-ok response fails with the error message built from its status and body |
| Text.NatToStringRoundTrip | js/utils.js:17 | The digits a template literal renders for a number read back as that number |
| Router.ShowSection | js/utils.js:40-50 | Ids, tags and every class other than `active-section`/`d-none` are unchanged. The first element with the target id is shown; an empty target id matches no element, as `getElementById("")` returns null. Every other section is concealed. Non-sections are untouched |
| Router.ExactlyTheTargetSectionIsShown | js/utils.js:40-50 | When the target is a section, it is the only section shown afterwards |
| Router.UnknownTargetHidesAll | js/utils.js:41-46 | With no element bearing the target id, every section is concealed |
| Router.ShowSectionIdempotent | js/utils.js:40-50 | Showing a section twice is the same as showing it once |
| Router.SectionIdFor | js/utils.js:60 | The section id is the link's `data-section`, or "undefined" when the attribute is missing, followed by `Section` |
| Router.SectionIdInjective | js/utils.js:60 | Two links route to the same section only when their `data-section` values are equal, reading a missing attribute as "undefined" |
| Router.NavClick | js/utils.js:57-65 | The page shows the clicked link's section. Afterwards exactly the clicked link carries `active`, and the links' other classes are unchanged |
| Router.LoaderFor | js/utils.js:69-87 | A loader is chosen only if it is registered. On a `candidato` path it is the candidate table's loader for the section, and otherwise it is the company table's loader on an `empresa` path. Any other path loads nothing |
| Router.LoaderForIsTableLookup | js/utils.js:69-87 | The click handler's loader is a lookup in the candidate table on a `candidato` path, or else in the company table on an `empresa` path. A section outside the table, or whose loader is not registered, loads nothing |
| Auth.RedirectFor | js/auth.js:14-18 | `candidato` goes to the candidate dashboard and `empresa` to the company dashboard. Any other role is not redirected |
| Auth.NewUser | js/auth.js:77-88 | The record has the email, password and role. A candidate gets an empty name, CV, skills and experience. A company gets an empty name, logo, sector and description. No other role gets any profile field |
| Auth.Register | js/auth.js:53-111 | An empty role is refused and nothing changes. Otherwise an email already on file is refused and nothing changes. Otherwise exactly the new record is appended |
| Auth.RegisterKeepsEmailsUnique | js/auth.js:68-74 | Registration keeps emails unique |
| Auth.RegisterKeepsUserIdsUnique | js/auth.js:90-96 | Registering under a fresh id keeps user ids unique |
| Auth.NewCandidateProfileIsBlank | js/auth.js:78-82 | A new candidate's profile form loads blank, and saving it untouched leaves the record unchanged |
| Auth.Login | js/auth.js:30-35 | No user is found iff none has both the email and the password. Otherwise the result is the first user that has both |
| Auth.LogIn | js/auth.js:33-41 | On a match the session holds that user and the page redirects by role. Otherwise nothing changes. Other session keys are untouched |
| Auth.RegisterThenLogIn | js/auth.js:53-111 | After a registration, logging in with the same credentials finds the new record and redirects by its role. Reopening the landing page redirects the same way |
| Auth.Logout | js/auth.js:115-118 | The session key is removed, other keys are untouched, and the page goes to `index.html` |
| Auth.PageLoadRedirect | js/auth.js:12-19 | The landing page redirects iff a user is stored under the session key and has a known role. A stored candidate goes to the candidate dashboard and a stored company to the company dashboard |
| Auth.LogoutEndsSession | js/auth.js:12-19 | After a logout the landing page does not redirect. Logging in and then out leaves the session as a plain logout would |
| Formats.ParseList | js/candidato.js:251 | Every parsed item is non-empty, trimmed and comma-free |
| Formats.ParseListMembers | js/empresa.js:154 | The parsed items are exactly the non-empty trims of the comma-separated pieces |
| Formats.SerializeList | js/candidato.js:231 | Serialising is `join(', ')`. Its contract is the round trip stated by `Formats.ParseSerializeList` |
| Formats.ParseSerializeList | js/candidato.js:231 | Joining non-empty, trimmed, comma-free items with ", " and parsing the text returns the same list |
| Formats.ParseExperience | js/candidato.js:255-262 | An entry is parsed iff some `;`-separated item has exactly its three trimmed comma-separated parts, and there is one entry per three-part item. Every entry's fields are trimmed and free of `,` and `;`, so it can be serialised and read back unchanged |
| Formats.ParseExperienceKeepsThreePartItems | js/candidato.js:256-262 | An entry is kept iff some `;`-item has exactly its three trimmed fields. There is one entry per three-part item, and every other item is dropped |
| Formats.ParseEntryDescribes | js/candidato.js:257-260 | An item parses to an entry iff its trimmed comma parts are exactly that entry's three fields |
| Formats.SerializeExperience | js/candidato.js:233-235 | Entries are written `puesto,empresa,años` and joined with `; `. Its contract is the round trip stated by `Formats.ParseSerializeExperience` |
| Formats.ParseSerializeExperience | js/candidato.js:233-235 | Serialising entries whose fields are trimmed and free of `,` and `;`, then parsing the text, returns the same entries |
| Formats.ApplicantsTitle | js/empresa.js:275 | The heading is `Postulantes para: "<title>"`. Its contract is the round trip stated by `Formats.ExtractApplicantsTitle` |
| Formats.ExtractTitle | js/empresa.js:381 | On a heading that starts with the prefix and has a character after it, the title is what lies between the prefix and the last character |
| Formats.ExtractApplicantsTitle | js/empresa.js:381 | Removing the prefix from the heading `Postulantes para: "t"` and dropping the last character returns `t` |
| Text.ContainsIffOccurs | js/candidato.js:70-71 | The `includes` scan succeeds exactly when the needle occurs at some offset |
| Text.JoinSplit | js/candidato.js:256 | Joining the split pieces with the separator gives back the text |
| Candidate.ResolveCompany | js/candidato.js:67-68 | No company is found iff no company has the id. Otherwise the result is the first company with that id, and it is unnamed iff that company has no `nombreEmpresa` |
| Candidate.FilterOffers | js/candidato.js:66-74 | Fails iff some offer's company is unnamed. Otherwise the result is the order-preserving selection of the offers passing both filters |
| Candidate.SearchOffersSpec | js/candidato.js:59-74 | The result lists exactly the active offers passing both filters, as a subsequence of the active offers. The search fails iff some active offer's company has no name |
| Candidate.SearchOffers | js/candidato.js:52-74 | Every listed offer is an active offer of the store. The exact selection and the failure case are stated by `Candidate.SearchOffersSpec` |
| Candidate.SearchWithoutTermsListsActiveOffers | js/candidato.js:59-71 | With both search boxes empty, every active offer is listed |
| Candidate.TitleFilterIsCaseInsensitive | js/candidato.js:59-70 | The title filter holds iff the term is empty or the lower-cased term occurs in the lower-cased title |
| Candidate.UnknownCompanyOnlyWithoutTerm | js/candidato.js:68-71 | An offer without a matching company passes the company filter iff the company box is empty |
| Candidate.ApplyToOffer | js/candidato.js:141-175 | Without a user nothing changes. With an existing application for the same candidate and offer nothing changes. Otherwise exactly one pending application dated today is appended |
| Candidate.ApplyKeepsOneApplicationPerPair | js/candidato.js:149-166 | Applying preserves "at most one application per candidate and offer" |
| Candidate.ApplyKeepsApplicationIdsUnique | js/candidato.js:155-166 | Applying under a fresh id keeps application ids unique |
| Candidate.ApplyTwiceIsApplyOnce | js/candidato.js:149-153 | A second application to the same offer is refused and changes nothing |
| Candidate.LoadProfile | js/candidato.js:222-237 | A present name and CV fill their fields as they are. Skills whose items are non-empty, trimmed and comma-free, and experience entries whose fields are trimmed and free of `,` and `;`, are written so that the save path parses them back unchanged |
| Candidate.UpdatedProfile | js/candidato.js:247-252 | Only the four profile fields change, and every other field of the user is kept |
| Candidate.SaveUneditedProfile | js/candidato.js:222-262 | Loading a profile whose list fields survive their formats into the form, then saving it unedited, gives back the same user |
| Candidate.HandleProfileUpdate | js/candidato.js:242-273 | Only `usuarios` can change. When the user's record exists, it is replaced in place by the updated profile, which becomes the page's user. When the record does not exist, the store and the page's user are unchanged |
| Company.CreateNewOffer | js/empresa.js:97-111 | The pointer is cleared, so the next submit publishes |
| Company.EditOffer | js/empresa.js:117-141 | The pointer is set to the id even when the fetch fails. The form is filled iff the offer exists, from the first offer with that id |
| Company.FormFromOffer | js/empresa.js:130-135 | The form's title, description, salary and modality come from the offer. Requirements that are non-empty, trimmed and comma-free are written so that parsing the field gives them back |
| Company.OfferFromForm | js/empresa.js:151-159 | The submitted offer is active, has the given id and belongs to the current company. Its text fields come from the form, and its requirements are the comma list parsed from the form's requirements field |
| Company.HandleOfferSubmit | js/empresa.js:146-198 | With a falsy pointer, exactly one offer is appended under the fresh id. With a truthy pointer to an existing offer, the offer with that id is replaced in place by the form's record under that id (every such offer, should ids repeat). With a pointer to a missing offer nothing changes. Users and applications never change |
| Company.CreateThenSubmitAddsOne | js/empresa.js:109 | After `createNewOffer`, submit adds exactly one offer after the existing ones |
| Company.EditThenSubmitReplaces | js/empresa.js:126 | After `editOffer` of an existing offer, submit keeps the count and every id, and leaves every other offer unchanged |
| Company.SubmitKeepsOfferIdsUnique | js/empresa.js:163-177 | Submitting keeps offer ids unique |
| Company.SubmitUneditedOfferKeepsStore | js/empresa.js:133-168 | Opening an active offer of the current company for editing and submitting the form untouched leaves the store unchanged |
| Company.SetOfferEstado | js/empresa.js:204-238 | A declined confirmation changes nothing, and a missing offer changes nothing. Otherwise only the `estado` of the offers with that id changes |
| Company.CloseOffer | js/empresa.js:204-218 | Only that offer's `estado` changes, to "cerrada", and every other record stays as it was |
| Company.ActivateOffer | js/empresa.js:224-238 | Only that offer's `estado` changes, to "activa", and every other record stays as it was |
| Company.CloseThenActivateRestores | js/empresa.js:207-231 | Closing an active offer and then activating it restores the store |
| Company.CardButtonFor | js/empresa.js:76-79 | The card shows `Cerrar` iff the offer is "activa", and `Activar` otherwise |
| Company.CardButtonFlipsListing | js/empresa.js:76-79 | The card's button moves the offer between listed ("activa") and not listed |
| Company.DeleteOffer | js/empresa.js:244-262 | A declined confirmation changes nothing. On success no application references the offer, the offer is gone, and the other offers remain. On failure the offers are unchanged |
| Company.DeleteApplications | js/empresa.js:249-251 | The loop only removes applications. When no DELETE fails, none of the listed ids remains |
| Company.DeleteApplicationsFilters | js/empresa.js:248-251 | The DELETE loop leaves a subsequence of the applications. When no DELETE fails, what is left is exactly the applications whose ids were not listed |
| Company.DeleteApplicationsSucceeds | js/empresa.js:249-251 | No DELETE fails when the listed applications are present and have distinct ids |
| Company.DeleteOfferOnlyRemovesApplications | js/empresa.js:244-262 | The cascade only ever removes applications |
| Company.DeleteOfferRemovesExactlyItsApplications | js/empresa.js:244-262 | With unique application ids, the cascade succeeds iff the offer exists, and it removes exactly that offer's applications, keeping the others in order |
| Company.UpdateApplicationStatus | js/empresa.js:371-377 | A missing id changes nothing. Otherwise only the `estado` of the application with that id changes |
| Company.LastDecisionWins | js/empresa.js:343-345 | Two decisions on the same application amount to the last one |
| Company.DecisionKeepsInvariants | js/empresa.js:371-377 | A decision keeps application ids unique and keeps at most one application per candidate and offer |
| Company.DecisionKeepsStatusesKnown | js/empresa.js:343-345 | Under the three offered decisions every status stays pending or one of the offered ones |
| Company.RefreshTitle | js/empresa.js:380-384 | The applicants list is reopened for the title shown in the heading, and not reopened when that title is empty |
| Store.FilterKeepsApplicationIdsUnique | js/empresa.js:248 | Any selection of applications with unique ids has unique ids |
| Seqs.Filter | js/candidato.js:66 | The order-preserving filter returns a subsequence holding exactly the input elements that pass |
| Seqs.FilterKeepsCounts | js/candidato.js:66 | Filtering keeps every copy of a kept element |

## Left out

- Rendering: the HTML templates, `innerHTML`, alerts and description truncation. The listing views are rendering-only or fetch-and-display: `loadMyJobOffers`, `viewOfferDetails`, `loadMyApplications`, `viewApplicants`, `showApplicantDetail`, `hideApplicantDetail`, `loadCompanies` and `viewCompanyOffers`. They are not modelled, apart from the applicants heading format and the close/activate button of `loadMyJobOffers`' offer cards.
- The company profile pair `loadCompanyProfile`/`handleCompanyProfileUpdate` is not modelled. It has the same PUT shape as the candidate profile but no parsing.
- The dashboards' role guard on page load (redirect to `index.html` without a session) is not modelled.
- The `fetch` transport: network errors, headers, JSON encoding and URL encoding of query values. The backend is a function from URL to response, and store writes address records by id.
- The non-ok registration POST is not modelled; the page would show an error message and the store would be unchanged. `Auth.Register` assumes the POST succeeds.
- The landing page's login query and email check read `response.json()` without testing `response.ok`, unlike `fetchData`. An error response on those requests is not modelled: the model reads the store directly.
- `sessionStorage` serialisation: the session is a map from key to user record.
- `confirm()`, `new Date()` and json-server's id generation are parameters.
- Unicode: `trim` removes only ASCII whitespace and `toLowerCase` folds only `A`-`Z`.
- Concurrency: check-then-insert races between handlers, and partial failure of the cascade delete beyond the DELETE that fails.
- The order of the N+1 fetches in the listing views.
- Store writes: PATCH, PUT and DELETE by id act on every record with that id, while json-server acts on the first one only. The two agree whenever ids are unique, and json-server refuses to create a record under a taken id, so only a hand-edited store with duplicate ids tells them apart. On such a store the model's cascade delete removes all duplicates at the first DELETE and then reports a failure, where the program deletes them one by one.
- Candidate.HandleProfileUpdate: the page's user becomes the saved record as the model sends it. The echo json-server returns is not modelled separately.
- Http.ErrorMessage: how a non-string `message` renders in a template literal is not computed. `ParsedBody.JsonValue` carries the rendered text.
- Formats.ParseList: its own contract states only that the items are well formed. Exactly which items are parsed is stated by `Formats.ParseListMembers`.
- Formats.SerializeList, Formats.SerializeExperience and Formats.ApplicantsTitle: they carry no contract of their own. Their round trips are stated by `Formats.ParseSerializeList`, `Formats.ParseSerializeExperience` and `Formats.ExtractApplicantsTitle`.
- Candidate.UpdatedProfile: its own contract states only that the other fields are kept. What the four fields become is stated through the list and experience lemmas.
- Company.DeleteOffer: membership of the remaining offers is stated, but not their order.

=== FILE: auth.dfy ===
/** The landing page: registration, login, the role-based redirect and
    logout. The browser's session storage is a map from keys to the stored
    user record. */
module Auth {
  import opened Wrappers
  import opened Seqs
  import opened Store
  import Candidate

  const CandidateDashboard: string := "dashboard-candidato.html"
  const CompanyDashboard: string := "dashboard-empresa.html"
  const LandingPage: string := "index.html"

  /** The session-storage key holding the logged-in user. */
  const SessionKey: string := "currentUser"

  type Session = map<string, User>

  // ------------------------------------------------------------- redirect

  /** Where a user of this role is sent; any other role stays put. */
  function RedirectFor(rol: string): (r: Option<string>)
    ensures r.Some? <==> rol == RoleCandidate || rol == RoleCompany
    ensures r == Some(CandidateDashboard) <==> rol == RoleCandidate
    ensures r == Some(CompanyDashboard) <==> rol == RoleCompany
  {
    if rol == RoleCandidate then Some(CandidateDashboard)
    else if rol == RoleCompany then Some(CompanyDashboard)
    else None
  }

  /** Opening the landing page with a session already stored. */
  function PageLoadRedirect(session: Session): (r: Option<string>)
    ensures r.Some? <==>
      SessionKey in session && (session[SessionKey].rol == RoleCandidate || session[SessionKey].rol == RoleCompany)
    ensures r == Some(CandidateDashboard) <==> SessionKey in session && session[SessionKey].rol == RoleCandidate
    ensures r == Some(CompanyDashboard) <==> SessionKey in session && session[SessionKey].rol == RoleCompany
  {
    if SessionKey in session then RedirectFor(session[SessionKey].rol) else None
  }

  // --------------------------------------------------------- registration

  /** The record registration POSTs: the credentials and role, plus the
      empty profile fields of that role. */
  function NewUser(id: string, email: string, password: string, rol: string): (u: User)
    ensures u.id == id && u.email == email && u.password == password && u.rol == rol
    ensures rol == RoleCandidate ==>
      && u.nombreCompleto == Some("") && u.cvUrl == Some("")
      && u.habilidades == Some([]) && u.experienciaLaboral == Some([])
      && u.nombreEmpresa.None? && u.logoUrl.None? && u.sector.None? && u.descripcion.None?
    ensures rol == RoleCompany ==>
      && u.nombreEmpresa == Some("") && u.logoUrl == Some("") && u.sector == Some("") && u.descripcion == Some("")
      && u.nombreCompleto.None? && u.cvUrl.None? && u.habilidades.None? && u.experienciaLaboral.None?
    ensures rol != RoleCandidate && rol != RoleCompany ==>
      && u.nombreCompleto.None? && u.cvUrl.None? && u.habilidades.None? && u.experienciaLaboral.None?
      && u.nombreEmpresa.None? && u.logoUrl.None? && u.sector.None? && u.descripcion.None?
  {
    var bare := User(id, email, password, rol, None, None, None, None, None, None, None, None);
    if rol == RoleCandidate then
      bare.(nombreCompleto := Some(""), cvUrl := Some(""), habilidades := Some([]), experienciaLaboral := Some([]))
    else if rol == RoleCompany then
      bare.(nombreEmpresa := Some(""), logoUrl := Some(""), sector := Some(""), descripcion := Some(""))
    else bare
  }

  predicate HasEmail(users: seq<User>, email: string) {
    exists i :: 0 <= i < |users| && users[i].email == email
  }

  predicate EmailsUnique(users: seq<User>) {
    forall i, j :: 0 <= i < j < |users| ==> users[i].email != users[j].email
  }

  datatype RegisterOutcome = RoleMissing | EmailTaken | Registered

  /** The register handler: an empty role is refused before any request; an
      email already on file is refused; otherwise the new record is POSTed
      under `freshId`. */
  function Register(s: Store, email: string, password: string, rol: string, freshId: string): (r: (Store, RegisterOutcome))
    ensures r.1 == RoleMissing <==> rol == ""
    ensures r.1 == EmailTaken <==> rol != "" && HasEmail(s.usuarios, email)
    ensures r.1 != Registered ==> r.0 == s
    ensures r.1 == Registered ==> r.0 == s.(usuarios := s.usuarios + [NewUser(freshId, email, password, rol)])
  {
    if rol == "" then (s, RoleMissing)
    else
      var existing := UsersWithEmail(s.usuarios, email);
      assert |existing| > 0 <==> HasEmail(s.usuarios, email) by {
        if |existing| > 0 {
          assert existing[0] in existing;
        }
        if HasEmail(s.usuarios, email) {
          var i :| 0 <= i < |s.usuarios| && s.usuarios[i].email == email;
          assert s.usuarios[i] in existing;
        }
      }
      if |existing| > 0 then (s, EmailTaken)
      else (s.(usuarios := s.usuarios + [NewUser(freshId, email, password, rol)]), Registered)
  }

  /** Registration keeps emails unique. */
  lemma RegisterKeepsEmailsUnique(s: Store, email: string, password: string, rol: string, freshId: string)
    requires EmailsUnique(s.usuarios)
    ensures EmailsUnique(Register(s, email, password, rol, freshId).0.usuarios)
  {
    var r := Register(s, email, password, rol, freshId);
    if r.1 == Registered {
      var users := r.0.usuarios;
      forall i, j | 0 <= i < j < |users| ensures users[i].email != users[j].email {
        if j == |s.usuarios| {
          assert users[i] == s.usuarios[i];
        }
      }
    }
  }

  /** Registration under a fresh id keeps user ids unique. */
  lemma RegisterKeepsUserIdsUnique(s: Store, email: string, password: string, rol: string, freshId: string)
    requires UserIdsUnique(s.usuarios) && !HasUser(s.usuarios, freshId)
    ensures UserIdsUnique(Register(s, email, password, rol, freshId).0.usuarios)
  {
    var r := Register(s, email, password, rol, freshId);
    if r.1 == Registered {
      var users := r.0.usuarios;
      forall i, j | 0 <= i < j < |users| ensures users[i].id != users[j].id {
        if j == |s.usuarios| {
          assert users[i] == s.usuarios[i];
        }
      }
    }
  }

  /** A freshly registered candidate's profile form loads blank, and saving
      it untouched leaves the record as registered. */
  lemma NewCandidateProfileIsBlank(id: string, email: string, password: string)
    ensures var u := NewUser(id, email, password, RoleCandidate);
      && Candidate.LoadProfile(u) == Candidate.ProfileForm("", "", "", "")
      && Candidate.UpdatedProfile(u, Candidate.LoadProfile(u)) == u
  {
    var u := NewUser(id, email, password, RoleCandidate);
    Candidate.SaveUneditedProfile(u);
  }

  // ---------------------------------------------------------------- login

  /** `usuarios?email=<email>&password=<password>`. */
  function Credentials(email: string, password: string): User -> bool {
    (u: User) => u.email == email && u.password == password
  }

  /** The login query: the first user with both the email and the password. */
  function Login(users: seq<User>, email: string, password: string): (r: Option<User>)
    ensures r.None? <==> forall i :: 0 <= i < |users| ==> !(users[i].email == email && users[i].password == password)
    ensures r.Some? ==>
      exists i :: 0 <= i < |users| && users[i] == r.value
        && users[i].email == email && users[i].password == password
        && forall j :: 0 <= j < i ==> !(users[j].email == email && users[j].password == password)
  {
    var matches := Filter(users, Credentials(email, password));
    FilterHead(users, Credentials(email, password));
    if |matches| > 0 then Some(matches[0]) else None
  }

  /** The login handler: on a match the user is stored in the session and
      the page redirects by role; otherwise nothing changes. */
  function LogIn(session: Session, users: seq<User>, email: string, password: string): (r: (Session, Option<string>))
    ensures Login(users, email, password).None? ==> r == (session, None)
    ensures Login(users, email, password).Some? ==>
      && SessionKey in r.0 && r.0[SessionKey] == Login(users, email, password).value
      && r.1 == RedirectFor(r.0[SessionKey].rol)
    ensures forall k :: k != SessionKey ==> (k in r.0 <==> k in session) && (k in r.0 ==> r.0[k] == session[k])
  {
    match Login(users, email, password)
    case None => (session, None)
    case Some(u) => (session[SessionKey := u], RedirectFor(u.rol))
  }

  /** Registering and then logging in with the same credentials logs in the
      new record and sends it to its role's dashboard; reopening the landing
      page afterwards redirects the same way. */
  lemma RegisterThenLogIn(s: Store, session: Session, email: string, password: string, rol: string, freshId: string)
    requires Register(s, email, password, rol, freshId).1 == Registered
    ensures var users := Register(s, email, password, rol, freshId).0.usuarios;
      var u := NewUser(freshId, email, password, rol);
      && Login(users, email, password) == Some(u)
      && LogIn(session, users, email, password) == (session[SessionKey := u], RedirectFor(rol))
      && PageLoadRedirect(session[SessionKey := u]) == RedirectFor(rol)
  {
    var users := Register(s, email, password, rol, freshId).0.usuarios;
    var u := NewUser(freshId, email, password, rol);
    assert users[|s.usuarios|] == u;
    forall j | 0 <= j < |s.usuarios| ensures users[j].email != email {
      assert !HasEmail(s.usuarios, email);
      assert users[j] == s.usuarios[j];
    }
  }

  // --------------------------------------------------------------- logout

  /** `logout`: drop the session key and go to the landing page. */
  function Logout(session: Session): (r: (Session, string))
    ensures SessionKey !in r.0
    ensures forall k :: k != SessionKey ==> (k in r.0 <==> k in session) && (k in r.0 ==> r.0[k] == session[k])
    ensures r.1 == LandingPage
  {
    (session - {SessionKey}, LandingPage)
  }

  /** After logging out the landing page no longer redirects, and logging in
      then out leaves the other session keys as they were. */
  lemma LogoutEndsSession(session: Session, users: seq<User>, email: string, password: string)
    ensures PageLoadRedirect(Logout(session).0) == None
    ensures Logout(LogIn(session, users, email, password).0).0 == Logout(session).0
  {
  }
}

=== FILE: candidate.dfy ===
/** The candidate dashboard: the offer search (`loadJobOffers`), applying to
    an offer (`applyToOffer`) and the profile form (`loadProfile`,
    `handleProfileUpdate`), as functions from the store and the form inputs
    to the new store and what the page reports. */
module Candidate {
  import opened Wrappers
  import opened Seqs
  import opened Text
  import opened Formats
  import opened Store

  // ---------------------------------------------------------- offer search

  /** What looking up an offer's company yields: no company has that id,
      the first company with that id has a name, or it has no
      `nombreEmpresa` (on which `toLowerCase` throws). */
  datatype CompanyName = NoCompany | Named(name: string) | Unnamed

  /** `empresas.find(emp => emp.id === oferta.idEmpresa)` and its name. */
  function ResolveCompany(companies: seq<User>, idEmpresa: string): (r: CompanyName)
    ensures r.NoCompany? <==> forall j :: 0 <= j < |companies| ==> companies[j].id != idEmpresa
    ensures !r.NoCompany? ==>
      exists i :: 0 <= i < |companies| && companies[i].id == idEmpresa
        && (forall j :: 0 <= j < i ==> companies[j].id != idEmpresa)
        && (r.Unnamed? <==> companies[i].nombreEmpresa.None?)
        && (r.Named? ==> companies[i].nombreEmpresa == Some(r.name))
  {
    match Find(companies, (u: User) => u.id == idEmpresa)
    case None => NoCompany
    case Some(u) =>
      match u.nombreEmpresa
      case None => Unnamed
      case Some(n) => Named(n)
  }

  /** The lower-cased company name the company filter searches in ("" when
      there is no company). */
  function CompanyText(company: CompanyName): string {
    if company.Named? then ToLower(company.name) else ""
  }

  /** The title filter, for a term that is already lower-cased. */
  predicate MatchesTitle(o: Offer, titleTerm: string) {
    titleTerm == "" || Contains(ToLower(o.titulo), titleTerm)
  }

  /** The company filter, for a term that is already lower-cased. */
  predicate MatchesCompany(company: CompanyName, companyTerm: string) {
    companyTerm == "" || Contains(CompanyText(company), companyTerm)
  }

  /** Both filters, AND-combined. */
  predicate Keeps(companies: seq<User>, titleTerm: string, companyTerm: string, o: Offer) {
    MatchesTitle(o, titleTerm) && MatchesCompany(ResolveCompany(companies, o.idEmpresa), companyTerm)
  }

  /** The filter callback throws on this offer. */
  predicate Throws(companies: seq<User>, o: Offer) {
    ResolveCompany(companies, o.idEmpresa).Unnamed?
  }

  /** `ofertas.filter(...)` in `loadJobOffers`: `None` when the callback
      throws on some offer (the panel then shows its error state). */
  function FilterOffers(offers: seq<Offer>, companies: seq<User>, titleTerm: string, companyTerm: string)
    : (r: Option<seq<Offer>>)
    ensures r.None? <==> exists o :: o in offers && Throws(companies, o)
    ensures r.Some? ==> r.value == Filter(offers, (o: Offer) => Keeps(companies, titleTerm, companyTerm, o))
    decreases |offers|
  {
    if |offers| == 0 then Some([])
    else
      var o := offers[0];
      assert forall x :: x in offers <==> x == o || x in offers[1..] by {
        assert offers == [o] + offers[1..];
      }
      if Throws(companies, o) then None
      else
        match FilterOffers(offers[1..], companies, titleTerm, companyTerm)
        case None => None
        case Some(rest) =>
          if Keeps(companies, titleTerm, companyTerm, o) then Some([o] + rest) else Some(rest)
  }

  /** `loadJobOffers`: the active offers, filtered by the two search boxes
      (an absent search box reads as ""). */
  function SearchOffers(s: Store, titleInput: string, companyInput: string): (r: Option<seq<Offer>>)
    ensures r.Some? ==> forall o :: o in r.value ==> o in s.ofertas && o.estado == OfferActive
  {
    FilterOffers(ActiveOffers(s.ofertas), Companies(s.usuarios), ToLower(titleInput), ToLower(companyInput))
  }

  /** The search lists exactly the active offers that pass both filters, in
      store order, and fails exactly when some active offer's company has no
      name. */
  lemma SearchOffersSpec(s: Store, titleInput: string, companyInput: string)
    ensures var r := SearchOffers(s, titleInput, companyInput);
      && (r.None? <==> exists o :: o in s.ofertas && o.estado == OfferActive && Throws(Companies(s.usuarios), o))
      && (r.Some? ==> IsSubsequence(r.value, ActiveOffers(s.ofertas)))
      && (r.Some? ==> forall o :: o in r.value <==>
            o in s.ofertas && o.estado == OfferActive
            && Keeps(Companies(s.usuarios), ToLower(titleInput), ToLower(companyInput), o))
  {
  }

  /** With both search boxes empty the search lists every active offer. */
  lemma SearchWithoutTermsListsActiveOffers(s: Store)
    ensures SearchOffers(s, "", "").Some? ==> SearchOffers(s, "", "").value == ActiveOffers(s.ofertas)
  {
    var companies := Companies(s.usuarios);
    FilterKeepsAll(ActiveOffers(s.ofertas), (o: Offer) => Keeps(companies, "", "", o));
  }

  /** The title filter is a case-insensitive substring test. */
  lemma TitleFilterIsCaseInsensitive(o: Offer, titleInput: string)
    ensures MatchesTitle(o, ToLower(titleInput)) <==>
      titleInput == "" || exists i :: OccursAt(ToLower(o.titulo), ToLower(titleInput), i)
  {
    ContainsIffOccurs(ToLower(o.titulo), ToLower(titleInput));
    assert ToLower(titleInput) == "" ==> titleInput == "";
  }

  /** An offer whose company cannot be found passes the company filter only
      when the company search box is empty. */
  lemma UnknownCompanyOnlyWithoutTerm(companyInput: string)
    ensures MatchesCompany(NoCompany, ToLower(companyInput)) <==> companyInput == ""
  {
    if companyInput != "" {
      assert ToLower(companyInput) != "";
      assert !StartsWith("", ToLower(companyInput));
    }
  }

  // ------------------------------------------------------------ applying

  datatype ApplyOutcome = NotLoggedIn | AlreadyApplied | Applied

  /** `applyToOffer`: refuses without a session, refuses a second application
      by the same candidate to the same offer, and otherwise creates a
      pending application dated `today`. */
  function ApplyToOffer(s: Store, currentUser: Option<User>, offerId: string, freshId: string, today: string)
    : (r: (Store, ApplyOutcome))
    ensures r.1 != Applied ==> r.0 == s
    ensures r.1 == NotLoggedIn <==> currentUser.None?
    ensures r.1 == AlreadyApplied <==>
      currentUser.Some? && exists a :: a in s.postulaciones && a.idOferta == offerId && a.idCandidato == currentUser.value.id
    ensures r.1 == Applied ==>
      && r.0.usuarios == s.usuarios
      && r.0.ofertas == s.ofertas
      && r.0.postulaciones == s.postulaciones + [Application(freshId, offerId, currentUser.value.id, today, Pending)]
  {
    match currentUser
    case None => (s, NotLoggedIn)
    case Some(u) =>
      var existing := ApplicationsOf(s.postulaciones, offerId, u.id);
      if |existing| > 0 then
        assert existing[0] in existing;
        (s, AlreadyApplied)
      else
        var app := Application(freshId, offerId, u.id, today, Pending);
        (s.(postulaciones := s.postulaciones + [app]), Applied)
  }

  /** Applying keeps at most one application per (candidate, offer). */
  lemma ApplyKeepsOneApplicationPerPair(s: Store, currentUser: Option<User>, offerId: string, freshId: string, today: string)
    requires OneApplicationPerPair(s.postulaciones)
    ensures OneApplicationPerPair(ApplyToOffer(s, currentUser, offerId, freshId, today).0.postulaciones)
  {
    var r := ApplyToOffer(s, currentUser, offerId, freshId, today);
    if r.1 == Applied {
      var apps := r.0.postulaciones;
      forall i, j | 0 <= i < j < |apps|
        ensures apps[i].idOferta != apps[j].idOferta || apps[i].idCandidato != apps[j].idCandidato
      {
        if j == |apps| - 1 {
          assert apps[i] in s.postulaciones;
        }
      }
    }
  }

  /** A fresh id keeps application ids unique. */
  lemma ApplyKeepsApplicationIdsUnique(s: Store, currentUser: Option<User>, offerId: string, freshId: string, today: string)
    requires ApplicationIdsUnique(s.postulaciones)
    requires !HasApplication(s.postulaciones, freshId)
    ensures ApplicationIdsUnique(ApplyToOffer(s, currentUser, offerId, freshId, today).0.postulaciones)
  {
  }

  /** Applying twice is applying once: the second attempt is refused and
      changes nothing. */
  lemma ApplyTwiceIsApplyOnce(s: Store, user: User, offerId: string, id1: string, id2: string, d1: string, d2: string)
    ensures var once := ApplyToOffer(s, Some(user), offerId, id1, d1).0;
      ApplyToOffer(once, Some(user), offerId, id2, d2) == (once, AlreadyApplied)
  {
    var first := ApplyToOffer(s, Some(user), offerId, id1, d1);
    if first.1 == Applied {
      var app := Application(id1, offerId, user.id, d1, Pending);
      assert app in first.0.postulaciones;
    }
  }

  // ------------------------------------------------------------- profile

  /** The four fields of the profile form. */
  datatype ProfileForm = ProfileForm(name: string, cv: string, skills: string, experience: string)

  /** `loadProfile`: the form filled from the current user. */
  function LoadProfile(u: User): (f: ProfileForm)
    ensures u.nombreCompleto.Some? ==> f.name == u.nombreCompleto.value
    ensures u.cvUrl.Some? ==> f.cv == u.cvUrl.value
    ensures u.habilidades.Some? && (forall i :: 0 <= i < |u.habilidades.value| ==> IsListItem(u.habilidades.value[i])) ==>
      ParseList(f.skills) == u.habilidades.value
    ensures (u.experienciaLaboral.Some?
             && forall i :: 0 <= i < |u.experienciaLaboral.value| ==> IsSerializableEntry(u.experienciaLaboral.value[i])) ==>
      ParseExperience(f.experience) == u.experienciaLaboral.value
  {
    var skills := match u.habilidades case Some(hs) => SerializeList(hs) case None => "";
    var experience := match u.experienciaLaboral case Some(es) => SerializeExperience(es) case None => "";
    assert u.habilidades.Some? && (forall i :: 0 <= i < |u.habilidades.value| ==> IsListItem(u.habilidades.value[i])) ==>
      ParseList(skills) == u.habilidades.value by {
      if u.habilidades.Some? && forall i :: 0 <= i < |u.habilidades.value| ==> IsListItem(u.habilidades.value[i]) {
        ParseSerializeList(u.habilidades.value);
      }
    }
    assert (u.experienciaLaboral.Some?
            && forall i :: 0 <= i < |u.experienciaLaboral.value| ==> IsSerializableEntry(u.experienciaLaboral.value[i])) ==>
      ParseExperience(experience) == u.experienciaLaboral.value by {
      if u.experienciaLaboral.Some?
        && forall i :: 0 <= i < |u.experienciaLaboral.value| ==> IsSerializableEntry(u.experienciaLaboral.value[i]) {
        ParseSerializeExperience(u.experienciaLaboral.value);
      }
    }
    ProfileForm(u.nombreCompleto.GetOr(""), u.cvUrl.GetOr(""), skills, experience)
  }

  /** The `updatedUser` of `handleProfileUpdate`: the current user with the
      four profile fields read from the form. */
  function UpdatedProfile(u: User, f: ProfileForm): (v: User)
    ensures v.(nombreCompleto := u.nombreCompleto, cvUrl := u.cvUrl,
               habilidades := u.habilidades, experienciaLaboral := u.experienciaLaboral) == u
  {
    u.(nombreCompleto := Some(f.name),
       cvUrl := Some(f.cv),
       habilidades := Some(ParseList(f.skills)),
       experienciaLaboral := Some(ParseExperience(f.experience)))
  }

  /** Saving the profile form as loaded, without edits, leaves a user whose
      fields the formats carry unchanged. */
  lemma SaveUneditedProfile(u: User)
    requires u.nombreCompleto.Some? && u.cvUrl.Some?
    requires u.habilidades.Some? && forall i :: 0 <= i < |u.habilidades.value| ==> IsListItem(u.habilidades.value[i])
    requires u.experienciaLaboral.Some?
    requires forall i :: 0 <= i < |u.experienciaLaboral.value| ==> IsSerializableEntry(u.experienciaLaboral.value[i])
    ensures UpdatedProfile(u, LoadProfile(u)) == u
  {
    ParseSerializeList(u.habilidades.value);
    ParseSerializeExperience(u.experienciaLaboral.value);
  }

  /** `handleProfileUpdate`: PUT the updated user over its record; the page's
      current user becomes the saved record. When no record has the user's
      id the backend answers 404 and nothing changes. */
  function HandleProfileUpdate(s: Store, u: User, f: ProfileForm): (r: (Store, User))
    ensures r.0 == s.(usuarios := r.0.usuarios)
    ensures !HasUser(s.usuarios, u.id) ==> r == (s, u)
    ensures HasUser(s.usuarios, u.id) ==>
      r.1 == UpdatedProfile(u, f) && UserReplaced(s.usuarios, r.0.usuarios, u.id, r.1)
  {
    if HasUser(s.usuarios, u.id) then
      var v := UpdatedProfile(u, f);
      (s.(usuarios := PutUser(s.usuarios, u.id, v)), v)
    else (s, u)
  }
}

=== FILE: company.dfy ===
/** The company dashboard: publishing and editing offers through the
    editing pointer, closing and re-activating them, the cascade delete,
    and deciding on applications. */
module Company {
  import opened Wrappers
  import opened Seqs
  import opened Text
  import opened Formats
  import opened Store

  // ------------------------------------------------------ the offer form

  /** The five inputs of the offer form. */
  datatype OfferForm = OfferForm(titulo: string, descripcion: string, requisitos: string, salario: string, modalidad: string)

  /** The page's state: the logged-in company and `currentEditingOfferId`. */
  datatype Editor = Editor(company: User, editing: Option<string>)

  /** The pointer selects the replace branch only when it is truthy: a
      non-empty id. */
  predicate IsEditing(ed: Editor) {
    ed.editing.Some? && ed.editing.value != ""
  }

  /** `createNewOffer`: the pointer is cleared. */
  function CreateNewOffer(ed: Editor): (r: Editor)
    ensures r.company == ed.company
    ensures !IsEditing(r)
  {
    ed.(editing := None)
  }

  /** The form as `editOffer` fills it from an offer record. */
  function FormFromOffer(o: Offer): (f: OfferForm)
    ensures f.titulo == o.titulo && f.descripcion == o.descripcion
    ensures f.salario == o.salario && f.modalidad == o.modalidad
    ensures (forall i :: 0 <= i < |o.requisitos| ==> IsListItem(o.requisitos[i])) ==>
      ParseList(f.requisitos) == o.requisitos
  {
    var f := OfferForm(o.titulo, o.descripcion, SerializeList(o.requisitos), o.salario, o.modalidad);
    assert (forall i :: 0 <= i < |o.requisitos| ==> IsListItem(o.requisitos[i])) ==>
      ParseList(f.requisitos) == o.requisitos by {
      if forall i :: 0 <= i < |o.requisitos| ==> IsListItem(o.requisitos[i]) {
        ParseSerializeList(o.requisitos);
      }
    }
    f
  }

  /** `editOffer`: the pointer is set before the record is fetched, so it
      stays set when the fetch fails; the form is filled only on success. */
  function EditOffer(ed: Editor, s: Store, offerId: string): (r: (Editor, Option<OfferForm>))
    ensures r.0 == ed.(editing := Some(offerId))
    ensures r.1.Some? <==> HasOffer(s.ofertas, offerId)
    ensures r.1.Some? ==>
      exists i :: 0 <= i < |s.ofertas| && s.ofertas[i].id == offerId
        && (forall j :: 0 <= j < i ==> s.ofertas[j].id != offerId)
        && r.1.value == FormFromOffer(s.ofertas[i])
  {
    var ed' := ed.(editing := Some(offerId));
    match Find(s.ofertas, (o: Offer) => o.id == offerId)
    case None => (ed', None)
    case Some(o) => (ed', Some(FormFromOffer(o)))
  }

  /** The `offerData` record `handleOfferSubmit` sends, under the given id. */
  function OfferFromForm(company: User, f: OfferForm, id: string): (o: Offer)
    ensures o.id == id && o.estado == OfferActive && o.idEmpresa == company.id
    ensures o.titulo == f.titulo && o.descripcion == f.descripcion
    ensures o.salario == f.salario && o.modalidad == f.modalidad
    ensures o.requisitos == ParseList(f.requisitos)
    ensures forall x :: x in o.requisitos ==> IsListItem(x)
  {
    Offer(id, f.titulo, f.descripcion, ParseList(f.requisitos), f.salario, f.modalidad, company.id, OfferActive)
  }

  datatype SubmitOutcome = Published | Updated | OfferNotFound

  /** `handleOfferSubmit`: POST a new offer under `freshId` unless the
      pointer is truthy, in which case PUT the record over the pointed
      offer (404 when there is none). */
  function HandleOfferSubmit(s: Store, ed: Editor, f: OfferForm, freshId: string): (r: (Store, SubmitOutcome))
    ensures r.0.usuarios == s.usuarios && r.0.postulaciones == s.postulaciones
    ensures r.1 == Published <==> !IsEditing(ed)
    ensures r.1 == Published ==> r.0.ofertas == s.ofertas + [OfferFromForm(ed.company, f, freshId)]
    ensures r.1 == OfferNotFound <==> IsEditing(ed) && !HasOffer(s.ofertas, ed.editing.value)
    ensures r.1 == OfferNotFound ==> r.0 == s
    ensures r.1 == Updated ==>
      OfferReplaced(s.ofertas, r.0.ofertas, ed.editing.value, OfferFromForm(ed.company, f, ed.editing.value))
  {
    if IsEditing(ed) then
      var id := ed.editing.value;
      if HasOffer(s.ofertas, id) then
        (s.(ofertas := PutOffer(s.ofertas, id, OfferFromForm(ed.company, f, id))), Updated)
      else (s, OfferNotFound)
    else
      (s.(ofertas := s.ofertas + [OfferFromForm(ed.company, f, freshId)]), Published)
  }

  /** After `createNewOffer`, submitting adds exactly one offer. */
  lemma CreateThenSubmitAddsOne(s: Store, ed: Editor, f: OfferForm, freshId: string)
    ensures var r := HandleOfferSubmit(s, CreateNewOffer(ed), f, freshId);
      && r.1 == Published
      && |r.0.ofertas| == |s.ofertas| + 1
      && r.0.ofertas[..|s.ofertas|] == s.ofertas
      && r.0.ofertas[|s.ofertas|].id == freshId
  {
    var r := HandleOfferSubmit(s, CreateNewOffer(ed), f, freshId);
    assert r.0.ofertas[..|s.ofertas|] == s.ofertas;
  }

  /** After `editOffer(id)` of an existing offer, submitting replaces that
      offer in place: same count, same id, every other offer unchanged. */
  lemma EditThenSubmitReplaces(s: Store, ed: Editor, offerId: string, f: OfferForm, freshId: string)
    requires offerId != "" && HasOffer(s.ofertas, offerId)
    ensures var r := HandleOfferSubmit(s, EditOffer(ed, s, offerId).0, f, freshId);
      && r.1 == Updated
      && |r.0.ofertas| == |s.ofertas|
      && (forall i :: 0 <= i < |s.ofertas| ==> r.0.ofertas[i].id == s.ofertas[i].id)
      && (forall i :: 0 <= i < |s.ofertas| && s.ofertas[i].id != offerId ==> r.0.ofertas[i] == s.ofertas[i])
  {
  }

  /** Publishing under a fresh id keeps offer ids unique; replacing keeps
      every id where it was. */
  lemma SubmitKeepsOfferIdsUnique(s: Store, ed: Editor, f: OfferForm, freshId: string)
    requires OfferIdsUnique(s.ofertas)
    requires !HasOffer(s.ofertas, freshId)
    ensures OfferIdsUnique(HandleOfferSubmit(s, ed, f, freshId).0.ofertas)
  {
    var r := HandleOfferSubmit(s, ed, f, freshId);
    var rs := r.0.ofertas;
    assert forall i :: 0 <= i < |s.ofertas| ==> rs[i].id == s.ofertas[i].id;
    if r.1 == Published {
      assert rs[|s.ofertas|].id == freshId;
    }
  }

  /** Opening an offer for editing and submitting the form untouched leaves
      the store as it was, provided the offer is active, belongs to the
      editing company and its requirements survive the list format. */
  lemma SubmitUneditedOfferKeepsStore(s: Store, ed: Editor, k: nat, freshId: string)
    requires OfferIdsUnique(s.ofertas)
    requires k < |s.ofertas| && s.ofertas[k].id != ""
    requires s.ofertas[k].estado == OfferActive && s.ofertas[k].idEmpresa == ed.company.id
    requires forall i :: 0 <= i < |s.ofertas[k].requisitos| ==> IsListItem(s.ofertas[k].requisitos[i])
    ensures var e := EditOffer(ed, s, s.ofertas[k].id);
      e.1 == Some(FormFromOffer(s.ofertas[k])) && HandleOfferSubmit(s, e.0, e.1.value, freshId) == (s, Updated)
  {
    var o := s.ofertas[k];
    var e := EditOffer(ed, s, o.id);
    var f := FormFromOffer(o);
    assert e.1 == Some(f);
    assert ParseList(f.requisitos) == o.requisitos;
    assert OfferFromForm(ed.company, f, o.id) == o;
    var r := HandleOfferSubmit(s, e.0, f, freshId);
    assert r.0.ofertas == s.ofertas;
  }

  // ------------------------------------------------ close and re-activate

  datatype PatchOutcome = Declined | Patched | PatchNotFound

  /** PATCH `{ estado }` onto offer `offerId` after a confirmation. */
  function SetOfferEstado(s: Store, offerId: string, confirmed: bool, estado: string): (r: (Store, PatchOutcome))
    ensures r.1 == Declined <==> !confirmed
    ensures r.1 == PatchNotFound <==> confirmed && !HasOffer(s.ofertas, offerId)
    ensures r.1 != Patched ==> r.0 == s
    ensures r.0.usuarios == s.usuarios && r.0.postulaciones == s.postulaciones
    ensures |r.0.ofertas| == |s.ofertas|
    ensures forall i :: 0 <= i < |s.ofertas| ==>
      && r.0.ofertas[i].(estado := s.ofertas[i].estado) == s.ofertas[i]
      && r.0.ofertas[i].estado == if r.1 == Patched && s.ofertas[i].id == offerId then estado else s.ofertas[i].estado
  {
    if !confirmed then (s, Declined)
    else if !HasOffer(s.ofertas, offerId) then (s, PatchNotFound)
    else (s.(ofertas := PatchOfferEstado(s.ofertas, offerId, estado)), Patched)
  }

  /** `closeOffer`: only the offer's `estado` changes, to "cerrada". */
  function CloseOffer(s: Store, offerId: string, confirmed: bool): (r: (Store, PatchOutcome))
    ensures r.1 == Patched <==> confirmed && HasOffer(s.ofertas, offerId)
    ensures r.1 != Patched ==> r.0 == s
    ensures r.0.usuarios == s.usuarios && r.0.postulaciones == s.postulaciones
    ensures |r.0.ofertas| == |s.ofertas|
    ensures forall i :: 0 <= i < |s.ofertas| && s.ofertas[i].id != offerId ==> r.0.ofertas[i] == s.ofertas[i]
    ensures forall i :: 0 <= i < |s.ofertas| && s.ofertas[i].id == offerId && r.1 == Patched ==>
      r.0.ofertas[i] == s.ofertas[i].(estado := OfferClosed)
  {
    SetOfferEstado(s, offerId, confirmed, OfferClosed)
  }

  /** `activateOffer`: only the offer's `estado` changes, to "activa". */
  function ActivateOffer(s: Store, offerId: string, confirmed: bool): (r: (Store, PatchOutcome))
    ensures r.1 == Patched <==> confirmed && HasOffer(s.ofertas, offerId)
    ensures r.1 != Patched ==> r.0 == s
    ensures r.0.usuarios == s.usuarios && r.0.postulaciones == s.postulaciones
    ensures |r.0.ofertas| == |s.ofertas|
    ensures forall i :: 0 <= i < |s.ofertas| && s.ofertas[i].id != offerId ==> r.0.ofertas[i] == s.ofertas[i]
    ensures forall i :: 0 <= i < |s.ofertas| && s.ofertas[i].id == offerId && r.1 == Patched ==>
      r.0.ofertas[i] == s.ofertas[i].(estado := OfferActive)
  {
    SetOfferEstado(s, offerId, confirmed, OfferActive)
  }

  /** Closing an active offer and re-activating it restores the store. */
  lemma CloseThenActivateRestores(s: Store, offerId: string)
    requires forall i :: 0 <= i < |s.ofertas| && s.ofertas[i].id == offerId ==> s.ofertas[i].estado == OfferActive
    ensures ActivateOffer(CloseOffer(s, offerId, true).0, offerId, true).0 == s
  {
    var closed := CloseOffer(s, offerId, true);
    var r := ActivateOffer(closed.0, offerId, true);
    if closed.1 == Patched {
      assert forall i :: 0 <= i < |s.ofertas| ==> closed.0.ofertas[i].id == s.ofertas[i].id;
      assert HasOffer(closed.0.ofertas, offerId) by {
        var i :| 0 <= i < |s.ofertas| && s.ofertas[i].id == offerId;
        assert closed.0.ofertas[i].id == offerId;
      }
      assert r.0.ofertas == s.ofertas;
    }
  }

  /** The state button on an offer's card. */
  datatype CardButton = Cerrar | Activar

  function CardButtonFor(o: Offer): (b: CardButton)
    ensures b == Cerrar <==> o.estado == OfferActive
  {
    if o.estado == OfferActive then Cerrar else Activar
  }

  /** What pressing a card button does. */
  function Press(s: Store, b: CardButton, offerId: string, confirmed: bool): (Store, PatchOutcome) {
    match b
    case Cerrar => CloseOffer(s, offerId, confirmed)
    case Activar => ActivateOffer(s, offerId, confirmed)
  }

  /** The card's button flips the offer between listed and not listed in
      the candidates' search ("activa" or not). */
  lemma CardButtonFlipsListing(s: Store, k: nat)
    requires k < |s.ofertas|
    ensures var o := s.ofertas[k];
      var r := Press(s, CardButtonFor(o), o.id, true);
      r.1 == Patched && (r.0.ofertas[k].estado == OfferActive <==> o.estado != OfferActive)
  {
  }

  // ------------------------------------------------------- cascade delete

  datatype DeleteOutcome = DeleteDeclined | Deleted | DeleteFailed

  function IdsOf(apps: seq<Application>): set<string> {
    set a | a in apps :: a.id
  }

  /** Survives deleting every application in `done`. */
  function NotDeleted(done: seq<Application>): Application -> bool {
    (a: Application) => a.id !in IdsOf(done)
  }

  /** The applications that do not reference `offerId`. */
  function NotForOffer(offerId: string): Application -> bool {
    (a: Application) => a.idOferta != offerId
  }

  /** The DELETE `postulaciones/<id>` loop of `deleteOffer`: deletes the
      listed applications by id, in order, and stops (second component
      false) at the first id the backend no longer has. */
  function DeleteApplications(apps: seq<Application>, toDelete: seq<Application>): (r: (seq<Application>, bool))
    ensures forall a :: a in r.0 ==> a in apps
    ensures r.1 ==> forall t :: t in toDelete ==> !HasApplication(r.0, t.id)
    decreases |toDelete|
  {
    if |toDelete| == 0 then (apps, true)
    else if !HasApplication(apps, toDelete[0].id) then (apps, false)
    else
      var left := DeleteApplicationRecord(apps, toDelete[0].id);
      var r := DeleteApplications(left, toDelete[1..]);
      assert !HasApplication(r.0, toDelete[0].id) by {
        forall a | a in r.0 ensures a.id != toDelete[0].id {
          assert a in left;
        }
      }
      r
  }

  /** Deleting `done` then `rest` by id, from the original collection: what
      is left is always a selection of it, and when no DELETE fails it is
      exactly the records whose ids were not listed. */
  lemma {:induction false} DeleteApplicationsFilters(apps: seq<Application>, done: seq<Application>, rest: seq<Application>)
    ensures var r := DeleteApplications(Filter(apps, NotDeleted(done)), rest);
      IsSubsequence(r.0, apps) && (r.1 ==> r.0 == Filter(apps, NotDeleted(done + rest)))
    decreases |rest|
  {
    if |rest| == 0 {
      assert done + rest == done;
    } else if HasApplication(Filter(apps, NotDeleted(done)), rest[0].id) {
      DeleteStep(apps, done, rest[0]);
      DeleteApplicationsFilters(apps, done + [rest[0]], rest[1..]);
      assert done + [rest[0]] + rest[1..] == done + rest;
    }
  }

  /** One more DELETE by id. */
  lemma DeleteStep(apps: seq<Application>, done: seq<Application>, app: Application)
    ensures DeleteApplicationRecord(Filter(apps, NotDeleted(done)), app.id) == Filter(apps, NotDeleted(done + [app]))
  {
    assert IdsOf(done + [app]) == IdsOf(done) + {app.id};
    FilterFilter(apps, NotDeleted(done), ApplicationIdIsNot(app.id), NotDeleted(done + [app]));
  }

  /** No DELETE fails when the listed applications are present and have
      unique ids. */
  lemma {:induction false} DeleteApplicationsSucceeds(apps: seq<Application>, toDelete: seq<Application>)
    requires ApplicationIdsUnique(toDelete)
    requires forall t :: t in toDelete ==> t in apps
    ensures DeleteApplications(apps, toDelete).1
    decreases |toDelete|
  {
    if |toDelete| > 0 {
      var app := toDelete[0];
      assert app in apps;
      var rest := toDelete[1..];
      assert ApplicationIdsUnique(rest) by {
        forall i, j | 0 <= i < j < |rest| ensures rest[i].id != rest[j].id {
          assert rest[i] == toDelete[i + 1] && rest[j] == toDelete[j + 1];
        }
      }
      forall t | t in rest ensures t in DeleteApplicationRecord(apps, app.id) {
        var k :| 0 <= k < |rest| && rest[k] == t;
        assert toDelete[k + 1] == t;
        assert ApplicationIdIsNot(app.id)(t);
      }
      DeleteApplicationsSucceeds(DeleteApplicationRecord(apps, app.id), rest);
    }
  }

  /** `deleteOffer`: after a confirmation, fetch the offer's applications,
      DELETE them one by one, then DELETE the offer. A 404 on any of these
      stops the cascade where it is. */
  function DeleteOffer(s: Store, offerId: string, confirmed: bool): (r: (Store, DeleteOutcome))
    ensures r.1 == DeleteDeclined <==> !confirmed
    ensures r.1 == DeleteDeclined ==> r.0 == s
    ensures r.0.usuarios == s.usuarios
    ensures r.1 != Deleted ==> r.0.ofertas == s.ofertas
    ensures r.1 == Deleted ==>
      && (forall a :: a in r.0.postulaciones ==> a.idOferta != offerId)
      && !HasOffer(r.0.ofertas, offerId)
      && (forall o :: o in r.0.ofertas <==> o in s.ofertas && o.id != offerId)
  {
    if !confirmed then (s, DeleteDeclined)
    else
      var toDelete := ApplicationsForOffer(s.postulaciones, offerId);
      var (left, ok) := DeleteApplications(s.postulaciones, toDelete);
      if !ok then (s.(postulaciones := left), DeleteFailed)
      else if !HasOffer(s.ofertas, offerId) then (s.(postulaciones := left), DeleteFailed)
      else
        NoneLeftFor(s.postulaciones, offerId, left);
        (Store(s.usuarios, DeleteOfferRecord(s.ofertas, offerId), left), Deleted)
  }

  /** Deleting the offer's applications from the whole collection. */
  lemma CascadeLeaves(apps: seq<Application>, offerId: string)
    ensures var r := DeleteApplications(apps, ApplicationsForOffer(apps, offerId));
      && IsSubsequence(r.0, apps)
      && (ApplicationIdsUnique(apps) ==> r == (Filter(apps, NotForOffer(offerId)), true))
  {
    var toDelete := ApplicationsForOffer(apps, offerId);
    FilterKeepsAll(apps, NotDeleted([]));
    DeleteApplicationsFilters(apps, [], toDelete);
    assert [] + toDelete == toDelete;
    if ApplicationIdsUnique(apps) {
      FilterKeepsApplicationIdsUnique(apps, (a: Application) => a.idOferta == offerId);
      DeleteApplicationsSucceeds(apps, toDelete);
      DeletedAreExactlyTheOffers(apps, offerId);
    }
  }

  /** The cascade only ever removes applications. */
  lemma DeleteOfferOnlyRemovesApplications(s: Store, offerId: string, confirmed: bool)
    ensures IsSubsequence(DeleteOffer(s, offerId, confirmed).0.postulaciones, s.postulaciones)
  {
    if !confirmed {
      IsSubsequenceOfItself(s.postulaciones);
    } else {
      CascadeLeaves(s.postulaciones, offerId);
    }
  }

  /** With unique application ids the cascade fails only on a missing
      offer, and removes exactly the offer's applications. */
  lemma DeleteOfferRemovesExactlyItsApplications(s: Store, offerId: string)
    requires ApplicationIdsUnique(s.postulaciones)
    ensures var r := DeleteOffer(s, offerId, true);
      && (r.1 == Deleted <==> HasOffer(s.ofertas, offerId))
      && r.0.postulaciones == Filter(s.postulaciones, NotForOffer(offerId))
  {
    CascadeLeaves(s.postulaciones, offerId);
  }

  /** Once every application of the offer is deleted by id, none referencing
      it is left. */
  lemma NoneLeftFor(apps: seq<Application>, offerId: string, left: seq<Application>)
    requires DeleteApplications(apps, ApplicationsForOffer(apps, offerId)) == (left, true)
    ensures forall a :: a in left ==> a.idOferta != offerId
  {
    var toDelete := ApplicationsForOffer(apps, offerId);
    FilterKeepsAll(apps, NotDeleted([]));
    DeleteApplicationsFilters(apps, [], toDelete);
    assert [] + toDelete == toDelete;
    forall a | a in left ensures a.idOferta != offerId {
      assert a in apps;
    }
  }

  /** With unique ids, deleting by the ids of the offer's applications
      deletes exactly the offer's applications. */
  lemma DeletedAreExactlyTheOffers(apps: seq<Application>, offerId: string)
    requires ApplicationIdsUnique(apps)
    ensures Filter(apps, NotDeleted(ApplicationsForOffer(apps, offerId))) == Filter(apps, NotForOffer(offerId))
  {
    var toDelete := ApplicationsForOffer(apps, offerId);
    forall a | a in apps ensures NotDeleted(toDelete)(a) == NotForOffer(offerId)(a) {
      if a.idOferta == offerId {
        assert a in toDelete;
      }
    }
    FilterCongruent(apps, NotDeleted(toDelete), NotForOffer(offerId));
  }

  // ------------------------------------------------- application decisions

  /** The three statuses the applicant detail offers as buttons. */
  const DecisionStatuses: seq<string> := [Accepted, Rejected, InReview]

  /** Every status an application can be in: created pending, then decided. */
  predicate KnownStatus(estado: string) {
    estado == Pending || estado in DecisionStatuses
  }

  predicate StatusesKnown(apps: seq<Application>) {
    forall i :: 0 <= i < |apps| ==> KnownStatus(apps[i].estado)
  }

  datatype StatusOutcome = StatusUpdated | StatusNotFound

  /** `updateApplicationStatus`: PATCH `{ estado }` onto one application. */
  function UpdateApplicationStatus(s: Store, appId: string, newStatus: string): (r: (Store, StatusOutcome))
    ensures r.1 == StatusNotFound <==> !HasApplication(s.postulaciones, appId)
    ensures r.1 == StatusNotFound ==> r.0 == s
    ensures r.0.usuarios == s.usuarios && r.0.ofertas == s.ofertas
    ensures |r.0.postulaciones| == |s.postulaciones|
    ensures forall i :: 0 <= i < |s.postulaciones| ==>
      && r.0.postulaciones[i].(estado := s.postulaciones[i].estado) == s.postulaciones[i]
      && r.0.postulaciones[i].estado == if s.postulaciones[i].id == appId then newStatus else s.postulaciones[i].estado
  {
    if HasApplication(s.postulaciones, appId) then
      (s.(postulaciones := PatchApplicationEstado(s.postulaciones, appId, newStatus)), StatusUpdated)
    else (s, StatusNotFound)
  }

  /** Deciding twice on the same application: the last decision wins. */
  lemma LastDecisionWins(s: Store, appId: string, first: string, second: string)
    ensures UpdateApplicationStatus(UpdateApplicationStatus(s, appId, first).0, appId, second).0
         == UpdateApplicationStatus(s, appId, second).0
  {
    var once := UpdateApplicationStatus(s, appId, first).0;
    var twice := UpdateApplicationStatus(once, appId, second).0;
    var direct := UpdateApplicationStatus(s, appId, second).0;
    assert twice.postulaciones == direct.postulaciones;
  }

  /** A decision keeps both store invariants on applications. */
  lemma DecisionKeepsInvariants(s: Store, appId: string, newStatus: string)
    requires OneApplicationPerPair(s.postulaciones) && ApplicationIdsUnique(s.postulaciones)
    ensures var r := UpdateApplicationStatus(s, appId, newStatus).0;
      OneApplicationPerPair(r.postulaciones) && ApplicationIdsUnique(r.postulaciones)
  {
    var r := UpdateApplicationStatus(s, appId, newStatus).0;
    assert forall i :: 0 <= i < |s.postulaciones| ==>
      r.postulaciones[i].id == s.postulaciones[i].id
      && r.postulaciones[i].idOferta == s.postulaciones[i].idOferta
      && r.postulaciones[i].idCandidato == s.postulaciones[i].idCandidato;
  }

  /** Statuses stay among the known ones under the offered decisions. */
  lemma DecisionKeepsStatusesKnown(s: Store, appId: string, newStatus: string)
    requires StatusesKnown(s.postulaciones) && newStatus in DecisionStatuses
    ensures StatusesKnown(UpdateApplicationStatus(s, appId, newStatus).0.postulaciones)
  {
  }

  /** After a decision the applicants list is re-opened for the title shown
      in its heading, when that title is not empty. */
  function RefreshTitle(heading: string): (r: Option<string>)
    ensures r.Some? ==> r.value != ""
    ensures forall t :: heading == ApplicantsTitle(t) ==> r == (if t == "" then None else Some(t))
  {
    var t := ExtractTitle(heading);
    assert forall t :: heading == ApplicantsTitle(t) ==> ExtractTitle(heading) == t by {
      forall t | heading == ApplicantsTitle(t) ensures ExtractTitle(heading) == t {
        ExtractApplicantsTitle(t);
      }
    }
    if t == "" then None else Some(t)
  }
}

=== FILE: formats.dfy ===
/** The text formats through which the dashboards move lists in and out of
    form fields:
    - the comma list (offer requirements, candidate skills): parsed by
      splitting on `,`, trimming every piece and dropping the empty ones,
      written back by joining with `", "`;
    - the work-experience list: entries separated by `;`, each entry the
      three comma-separated fields `puesto,empresa,años`, malformed entries
      dropped; written back as `puesto,empresa,años` joined with `"; "`;
    - the applicants-panel heading `Postulantes para: "<title>"` and the
      extraction of the title back out of it. */
module Formats {
  import opened Wrappers
  import opened Seqs
  import opened Text

  // ---------------------------------------------------------- comma list

  /** An item the comma-list format can carry unchanged. */
  predicate IsListItem(x: string) {
    x != "" && IsTrimmed(x) && ',' !in x
  }

  /** The trimmed pieces of `text` between occurrences of `sep`. */
  function TrimmedPieces(text: string, sep: char): seq<string> {
    Map(Split(text, sep), Trim)
  }

  /** Every trimmed piece is the trim of some piece, and is trimmed and free
      of the separator. */
  lemma TrimmedPiecesSound(text: string, sep: char)
    ensures forall x :: x in TrimmedPieces(text, sep) ==>
      exists piece :: piece in Split(text, sep) && Trim(piece) == x
    ensures forall x :: x in TrimmedPieces(text, sep) ==> IsTrimmed(x) && sep !in x
  {
    var pieces := Split(text, sep);
    var trimmed := TrimmedPieces(text, sep);
    forall x | x in trimmed
      ensures exists piece :: piece in pieces && Trim(piece) == x
      ensures IsTrimmed(x) && sep !in x
    {
      var i :| 0 <= i < |trimmed| && trimmed[i] == x;
      assert pieces[i] in pieces;
      TrimFacts(pieces[i]);
    }
  }

  /** The trim of every piece is a trimmed piece. */
  lemma TrimmedPiecesComplete(text: string, sep: char)
    ensures forall piece :: piece in Split(text, sep) ==> Trim(piece) in TrimmedPieces(text, sep)
  {
    var pieces := Split(text, sep);
    var trimmed := TrimmedPieces(text, sep);
    forall piece | piece in pieces ensures Trim(piece) in trimmed {
      var i :| 0 <= i < |pieces| && pieces[i] == piece;
      assert trimmed[i] == Trim(piece);
    }
  }

  /** The trimmed pieces are exactly the trims of the pieces. */
  lemma TrimmedPiecesMembers(text: string, sep: char)
    ensures forall x :: x in TrimmedPieces(text, sep) <==>
      exists piece :: piece in Split(text, sep) && Trim(piece) == x
    ensures forall x :: x in TrimmedPieces(text, sep) ==> IsTrimmed(x) && sep !in x
  {
    TrimmedPiecesSound(text, sep);
    TrimmedPiecesComplete(text, sep);
  }

  /** `text.split(',').map(s => s.trim()).filter(s => s !== '')`. */
  function ParseList(text: string): (items: seq<string>)
    ensures forall x :: x in items ==> IsListItem(x)
  {
    TrimmedPiecesSound(text, ',');
    Filter(TrimmedPieces(text, ','), (x: string) => x != "")
  }

  /** The parsed items are exactly the non-empty trimmed pieces. */
  lemma ParseListMembers(text: string)
    ensures forall x :: x in ParseList(text) <==>
      x != "" && exists piece :: piece in Split(text, ',') && Trim(piece) == x
  {
    TrimmedPiecesMembers(text, ',');
  }

  /** `items.join(', ')`. */
  function SerializeList(items: seq<string>): string {
    Join(items, ", ")
  }

  /** A leading space is absorbed by the trim of the first piece. */
  lemma TrimmedPiecesLeadingSpace(text: string, sep: char)
    requires sep != ' '
    ensures TrimmedPieces(" " + text, sep) == TrimmedPieces(text, sep)
  {
    var pieces := Split(text, sep);
    SplitCons(' ', text, sep);
    var first, rest := [pieces[0]], pieces[1..];
    var spacedFirst := [[' '] + pieces[0]];
    assert Split(" " + text, sep) == spacedFirst + rest;
    assert pieces == first + rest;
    MapConcat(spacedFirst, rest, Trim);
    MapConcat(first, rest, Trim);
    TrimLeadingSpace(' ', pieces[0]);
    assert Map(spacedFirst, Trim) == Map(first, Trim);
  }

  lemma TrimmedPiecesConcat(a: string, b: string, sep: char)
    ensures TrimmedPieces(a + [sep] + b, sep) == TrimmedPieces(a, sep) + TrimmedPieces(b, sep)
  {
    SplitConcat(a, b, sep);
    MapConcat(Split(a, sep), Split(b, sep), Trim);
  }

  lemma ParseListConcat(a: string, b: string)
    ensures ParseList(a + "," + b) == ParseList(a) + ParseList(b)
  {
    TrimmedPiecesConcat(a, b, ',');
    FilterConcat(TrimmedPieces(a, ','), TrimmedPieces(b, ','), (x: string) => x != "");
  }

  lemma ParseListSingle(x: string)
    requires IsListItem(x)
    ensures ParseList(x) == [x]
  {
    SplitNoSep(x, ',');
    assert TrimmedPieces(x, ',') == [x];
  }

  lemma ParseListLeadingSpace(text: string)
    ensures ParseList(" " + text) == ParseList(text)
  {
    TrimmedPiecesLeadingSpace(text, ',');
  }

  lemma ParseSerializeCons(x: string, rest: seq<string>)
    requires IsListItem(x) && |rest| >= 1
    ensures ParseList(SerializeList([x] + rest)) == [x] + ParseList(SerializeList(rest))
  {
    var tail := SerializeList(rest);
    JoinCons(x, rest, ", ");
    assert SerializeList([x] + rest) == x + "," + (" " + tail);
    ParseListConcat(x, " " + tail);
    ParseListSingle(x);
    ParseListLeadingSpace(tail);
  }

  /** Serialising a list of well-formed items and parsing the text back
      returns the same list. */
  lemma {:induction false} ParseSerializeList(items: seq<string>)
    requires forall i :: 0 <= i < |items| ==> IsListItem(items[i])
    ensures ParseList(SerializeList(items)) == items
    decreases |items|
  {
    if |items| == 0 {
      assert TrimmedPieces("", ',') == [""];
    } else if |items| == 1 {
      ParseListSingle(items[0]);
    } else {
      ParseSerializeList(items[1..]);
      ParseSerializeCons(items[0], items[1..]);
      assert items == [items[0]] + items[1..];
    }
  }

  // ----------------------------------------------------- work experience

  /** One work-experience entry (`años` is spelled `anios` here). */
  datatype Experience = Experience(puesto: string, empresa: string, anios: string)

  /** The entry an item describes, when it has exactly three comma-separated parts. */
  function ParseEntry(item: string): Option<Experience> {
    var parts := TrimmedPieces(item, ',');
    if |parts| == 3 then Some(Experience(parts[0], parts[1], parts[2])) else None
  }

  predicate HasThreeParts(item: string) {
    |TrimmedPieces(item, ',')| == 3
  }

  /** `item` consists of exactly the three fields of `e`, up to whitespace around each. */
  predicate Describes(item: string, e: Experience) {
    TrimmedPieces(item, ',') == [e.puesto, e.empresa, e.anios]
  }

  lemma ParseEntryDescribes(item: string, e: Experience)
    ensures ParseEntry(item) == Some(e) <==> Describes(item, e)
  {
    var parts := TrimmedPieces(item, ',');
    if ParseEntry(item) == Some(e) {
      assert |parts| == 3;
      assert parts == [parts[0], parts[1], parts[2]];
    }
  }

  /** The entries of the well-formed items, in order. */
  function ParseEntries(items: seq<string>): seq<Experience>
    decreases |items|
  {
    if |items| == 0 then []
    else
      match ParseEntry(items[0])
      case Some(e) => [e] + ParseEntries(items[1..])
      case None => ParseEntries(items[1..])
  }

  /** An entry is parsed exactly when some item describes it. */
  lemma {:induction false} ParseEntriesMembers(items: seq<string>)
    ensures forall e :: e in ParseEntries(items) <==> exists i :: i in items && Describes(i, e)
    decreases |items|
  {
    if |items| > 0 {
      ParseEntriesMembers(items[1..]);
      ParseEntriesStep(items);
      EntriesCons(items, ParseEntries(items[1..]));
    }
  }

  /** The entries of a non-empty item list: the first item's, if any, then
      the rest's. */
  lemma ParseEntriesStep(items: seq<string>)
    requires |items| > 0
    ensures forall e :: e in ParseEntries(items) <==>
      e in ParseEntries(items[1..]) || ParseEntry(items[0]) == Some(e)
  {
    var rest := ParseEntries(items[1..]);
    match ParseEntry(items[0]) {
      case Some(e0) => assert ParseEntries(items) == [e0] + rest;
      case None => assert ParseEntries(items) == rest;
    }
  }

  /** One entry per item with exactly three parts. */
  lemma {:induction false} ParseEntriesCount(items: seq<string>)
    ensures |ParseEntries(items)| == |Filter(items, HasThreeParts)|
    decreases |items|
  {
    if |items| > 0 {
      ParseEntriesCount(items[1..]);
    }
  }

  /** The step of `ParseEntries`: what the first item contributes. */
  lemma EntriesCons(items: seq<string>, rest: seq<Experience>)
    requires |items| > 0
    requires forall e :: e in rest <==> exists i :: i in items[1..] && Describes(i, e)
    ensures forall e :: (e in rest || ParseEntry(items[0]) == Some(e)) <==>
      exists i :: i in items && Describes(i, e)
  {
    forall e: Experience | exists i :: i in items && Describes(i, e)
      ensures e in rest || ParseEntry(items[0]) == Some(e)
    {
      var k :| 0 <= k < |items| && Describes(items[k], e);
      if k > 0 {
        assert items[1..][k - 1] == items[k];
      } else {
        ParseEntryDescribes(items[0], e);
      }
    }
    forall e: Experience | ParseEntry(items[0]) == Some(e)
      ensures exists i :: i in items && Describes(i, e)
    {
      ParseEntryDescribes(items[0], e);
      assert items[0] in items;
    }
    forall e: Experience | e in rest
      ensures exists i :: i in items && Describes(i, e)
    {
      var i :| i in items[1..] && Describes(i, e);
      assert i in items;
    }
  }

  /** The experience textarea: `;`-separated items, each kept iff it splits
      into exactly three comma-separated parts, which are trimmed. */
  function ParseExperience(text: string): (entries: seq<Experience>)
    ensures KeepsThreePartItems(text, entries)
    ensures forall e :: e in entries ==> IsSerializableEntry(e)
  {
    ParseEntriesMembers(Split(text, ';'));
    ParseEntriesCount(Split(text, ';'));
    ParseEntriesFields(Split(text, ';'));
    ParseEntries(Split(text, ';'))
  }

  /** `entries` holds an entry iff some `;`-separated item of `text` has
      exactly its three fields, one entry per three-part item. */
  ghost predicate KeepsThreePartItems(text: string, entries: seq<Experience>) {
    && (forall e :: e in entries <==> exists item :: item in Split(text, ';') && Describes(item, e))
    && |entries| == |Filter(Split(text, ';'), HasThreeParts)|
  }

  /** Items free of `;` parse into entries whose fields are trimmed and
      free of both separators. */
  lemma ParseEntriesFields(items: seq<string>)
    requires forall i :: 0 <= i < |items| ==> ';' !in items[i]
    ensures forall e :: e in ParseEntries(items) ==> IsSerializableEntry(e)
  {
    ParseEntriesMembers(items);
    forall e | e in ParseEntries(items) ensures IsSerializableEntry(e) {
      var item :| item in items && Describes(item, e);
      var parts := TrimmedPieces(item, ',');
      TrimmedPiecesSound(item, ',');
      SplitChars(item, ',');
      assert parts[0] in parts && parts[1] in parts && parts[2] in parts;
      forall x | x in parts ensures ';' !in x {
        var piece :| piece in Split(item, ',') && Trim(piece) == x;
        TrimFacts(piece);
      }
    }
  }

  /** The parser keeps an entry iff some `;`-separated item has exactly its
      three fields, and drops every other item. */
  lemma ParseExperienceKeepsThreePartItems(text: string)
    ensures forall e :: e in ParseExperience(text) <==>
      exists item :: item in Split(text, ';') && Describes(item, e)
    ensures |ParseExperience(text)| == |Filter(Split(text, ';'), HasThreeParts)|
  {
    ParseEntriesMembers(Split(text, ';'));
    ParseEntriesCount(Split(text, ';'));
  }

  function SerializeEntry(e: Experience): string {
    e.puesto + "," + e.empresa + "," + e.anios
  }

  /** `entries.map(exp => `${puesto},${empresa},${años}`).join('; ')`. */
  function SerializeExperience(entries: seq<Experience>): string {
    Join(Map(entries, SerializeEntry), "; ")
  }

  /** A field the experience format can carry unchanged. */
  predicate IsField(f: string) {
    IsTrimmed(f) && ',' !in f && ';' !in f
  }

  predicate IsSerializableEntry(e: Experience) {
    IsField(e.puesto) && IsField(e.empresa) && IsField(e.anios)
  }

  lemma EntryPartsOfSerialized(e: Experience)
    requires IsSerializableEntry(e)
    ensures TrimmedPieces(SerializeEntry(e), ',') == [e.puesto, e.empresa, e.anios]
  {
    var s := SerializeEntry(e);
    assert s == e.puesto + [','] + (e.empresa + [','] + e.anios);
    SplitConcat(e.puesto, e.empresa + [','] + e.anios, ',');
    SplitConcat(e.empresa, e.anios, ',');
    SplitNoSep(e.puesto, ',');
    SplitNoSep(e.empresa, ',');
    SplitNoSep(e.anios, ',');
  }

  lemma {:induction false} ParseEntriesConcat(a: seq<string>, b: seq<string>)
    ensures ParseEntries(a + b) == ParseEntries(a) + ParseEntries(b)
    decreases |a|
  {
    if |a| == 0 {
      assert a + b == b;
    } else {
      assert (a + b)[1..] == a[1..] + b;
      ParseEntriesConcat(a[1..], b);
    }
  }

  lemma ParseExperienceConcat(a: string, b: string)
    ensures ParseExperience(a + ";" + b) == ParseExperience(a) + ParseExperience(b)
  {
    SplitConcat(a, b, ';');
    ParseEntriesConcat(Split(a, ';'), Split(b, ';'));
  }

  lemma ParseExperienceLeadingSpace(text: string)
    ensures ParseExperience(" " + text) == ParseExperience(text)
  {
    var items := Split(text, ';');
    SplitCons(' ', text, ';');
    TrimmedPiecesLeadingSpace(items[0], ',');
    assert Split(" " + text, ';') == [" " + items[0]] + items[1..];
    assert items == [items[0]] + items[1..];
    ParseEntriesSameHead(" " + items[0], items[0], items[1..]);
  }

  /** Two first items that parse alike give the same entries. */
  lemma ParseEntriesSameHead(x: string, y: string, rest: seq<string>)
    requires ParseEntry(x) == ParseEntry(y)
    ensures ParseEntries([x] + rest) == ParseEntries([y] + rest)
  {
    assert ([x] + rest)[1..] == rest;
    assert ([y] + rest)[1..] == rest;
  }

  lemma ParseExperienceSingle(e: Experience)
    requires IsSerializableEntry(e)
    ensures ParseExperience(SerializeEntry(e)) == [e]
  {
    var s := SerializeEntry(e);
    assert ';' !in s;
    SplitNoSep(s, ';');
    EntryPartsOfSerialized(e);
    assert ParseEntries([s]) == [e] + ParseEntries([]);
  }

  lemma ParseExperienceEmpty()
    ensures ParseExperience(SerializeExperience([])) == []
  {
    assert Split("", ';') == [""];
    assert TrimmedPieces("", ',') == [""];
  }

  lemma ParseSerializeExperienceOne(e: Experience)
    requires IsSerializableEntry(e)
    ensures ParseExperience(SerializeExperience([e])) == [e]
  {
    assert Map([e], SerializeEntry) == [SerializeEntry(e)];
    ParseExperienceSingle(e);
  }

  lemma ParseSerializeExperienceCons(e: Experience, rest: seq<Experience>)
    requires IsSerializableEntry(e) && |rest| >= 1
    ensures ParseExperience(SerializeExperience([e] + rest)) == [e] + ParseExperience(SerializeExperience(rest))
  {
    var s := SerializeEntry(e);
    var tail := SerializeExperience(rest);
    assert Map([e] + rest, SerializeEntry) == [s] + Map(rest, SerializeEntry);
    JoinCons(s, Map(rest, SerializeEntry), "; ");
    assert SerializeExperience([e] + rest) == s + ";" + (" " + tail);
    ParseExperienceConcat(s, " " + tail);
    ParseExperienceSingle(e);
    ParseExperienceLeadingSpace(tail);
  }

  /** Serialising well-formed entries and parsing the text back returns the
      same entries. */
  lemma {:induction false} ParseSerializeExperience(entries: seq<Experience>)
    requires forall i :: 0 <= i < |entries| ==> IsSerializableEntry(entries[i])
    ensures ParseExperience(SerializeExperience(entries)) == entries
    decreases |entries|
  {
    if |entries| == 0 {
      ParseExperienceEmpty();
    } else if |entries| == 1 {
      ParseSerializeExperienceOne(entries[0]);
      assert entries == [entries[0]];
    } else {
      ParseSerializeExperience(entries[1..]);
      ParseSerializeExperienceCons(entries[0], entries[1..]);
      assert entries == [entries[0]] + entries[1..];
    }
  }

  // ------------------------------------------------------ applicants title

  const ApplicantsPrefix: string := "Postulantes para: \""

  /** The heading of the applicants panel for an offer titled `title`. */
  function ApplicantsTitle(title: string): string {
    ApplicantsPrefix + title + "\""
  }

  /** The title read back from the heading: the first occurrence of the
      prefix removed, then the last character dropped. */
  function ExtractTitle(heading: string): (title: string)
    ensures StartsWith(heading, ApplicantsPrefix) && |heading| > |ApplicantsPrefix| ==>
      title == heading[|ApplicantsPrefix|..|heading| - 1]
  {
    DropLast(RemoveFirst(heading, ApplicantsPrefix))
  }

  /** Every title survives the trip through the heading. */
  lemma ExtractApplicantsTitle(title: string)
    ensures ExtractTitle(ApplicantsTitle(title)) == title
  {
    var heading := ApplicantsTitle(title);
    assert heading[..|ApplicantsPrefix|] == ApplicantsPrefix;
    assert heading[|ApplicantsPrefix|..] == title + "\"";
  }
}

=== FILE: http.dfy ===
/** `fetchData`, the one request helper every dashboard call goes through:
    the request URL, the success payload, and the message of the error it
    throws on a non-ok response. The backend is a function from request URL
    to response. */
module Http {
  import opened Wrappers
  import opened Text

  const ApiBaseUrl: string := "http://localhost:3000"
  const StatusPrefix: string := "HTTP error! status: "

  /** `${API_BASE_URL}/${endpoint}`. */
  function RequestUrl(endpoint: string): (url: string)
    ensures |url| == |ApiBaseUrl| + 1 + |endpoint|
    ensures url[..|ApiBaseUrl| + 1] == ApiBaseUrl + "/"
    ensures url[|ApiBaseUrl| + 1..] == endpoint
  {
    ApiBaseUrl + "/" + endpoint
  }

  /** Distinct endpoints are requested at distinct URLs. */
  lemma RequestUrlInjective(a: string, b: string)
    requires RequestUrl(a) == RequestUrl(b)
    ensures a == b
  {
    assert a == RequestUrl(a)[|ApiBaseUrl| + 1..];
  }

  /** What `JSON.parse` makes of an error body: not JSON, `null` (reading
      `.message` of it throws), or another value. For another value,
      `message` is how a template literal renders its `message` property
      when that property is truthy (`"42"` for the number 42, the text itself
      for a non-empty string), and `None` when the property is absent or
      falsy (`""`, `0`, `false`, `null`). */
  datatype ParsedBody = NotJson | JsonNull | JsonValue(message: Option<string>)

  /** The message thrown for a non-ok response with this status and body. */
  function ErrorMessage(status: nat, body: string, parsed: ParsedBody): (m: string)
    ensures StartsWith(m, StatusPrefix + NatToString(status))
    ensures body == "" ==> m == StatusPrefix + NatToString(status)
    ensures body != "" && parsed.JsonValue? && parsed.message.Some? ==>
      m == StatusPrefix + NatToString(status) + " - " + parsed.message.value
    ensures body != "" && !(parsed.JsonValue? && parsed.message.Some?) ==>
      m == StatusPrefix + NatToString(status) + " - " + body
  {
    var m := StatusPrefix + NatToString(status);
    if body == "" then m
    else
      match parsed
      case NotJson => m + " - " + body
      case JsonNull => m + " - " + body
      case JsonValue(message) =>
        m + " - " + message.GetOr(body)
  }

  /** The status can be read back from the message: its digits follow the
      prefix and end the message or are followed by a space. */
  lemma ErrorMessageNamesStatus(status: nat, body: string, parsed: ParsedBody)
    ensures var m := ErrorMessage(status, body, parsed);
      var d := NatToString(status);
      var end := |StatusPrefix| + |d|;
      && end <= |m|
      && m[|StatusPrefix|..end] == d
      && DigitsValue(m[|StatusPrefix|..end]) == status
      && (end == |m| || m[end] == ' ')
  {
    NatToStringRoundTrip(status);
    var m := ErrorMessage(status, body, parsed);
    var d := NatToString(status);
    assert m[..|StatusPrefix| + |d|] == StatusPrefix + d;
    assert m[|StatusPrefix|..|StatusPrefix| + |d|] == (StatusPrefix + d)[|StatusPrefix|..];
  }

  /** A response as `fetchData` sees it: `ok`, the status, the body text,
      what `JSON.parse` makes of the body on the error path and what
      `response.json()` yields on the success path (`None` when it throws). */
  datatype Response<J> = Response(ok: bool, status: nat, body: string, parsedError: ParsedBody, json: Option<J>)

  datatype FetchError = HttpError(message: string) | InvalidJson

  /** `fetchData(endpoint)` against a backend answering every URL. */
  function FetchData<J>(endpoint: string, backend: string -> Response<J>): (r: Result<J, FetchError>)
    ensures var resp := backend(RequestUrl(endpoint));
      && (r.Success? <==> resp.ok && resp.json.Some?)
      && (r.Success? ==> r.value == resp.json.value)
      && (!resp.ok ==> r == Failure(HttpError(ErrorMessage(resp.status, resp.body, resp.parsedError))))
  {
    var resp := backend(ApiBaseUrl + "/" + endpoint);
    if !resp.ok then Failure(HttpError(ErrorMessage(resp.status, resp.body, resp.parsedError)))
    else
      match resp.json
      case None => Failure(InvalidJson)
      case Some(payload) => Success(payload)
  }
}

=== FILE: router.dfy ===
/** Single-page navigation: `showSection` over the page's elements, the
    navbar click handler, and the per-page loader dispatch. An element is
    its tag, its id attribute and its class list. */
module Router {
  import opened Wrappers
  import opened Seqs
  import opened Text

  const ActiveSection: string := "active-section"
  const Hidden: string := "d-none"
  const ActiveLink: string := "active"

  datatype Element = Element(tag: string, id: string, classes: set<string>)

  predicate IsSection(e: Element) {
    e.tag == "section"
  }

  predicate Shown(e: Element) {
    ActiveSection in e.classes && Hidden !in e.classes
  }

  predicate Concealed(e: Element) {
    ActiveSection !in e.classes && Hidden in e.classes
  }

  function Conceal(e: Element): Element {
    e.(classes := e.classes - {ActiveSection} + {Hidden})
  }

  function Reveal(e: Element): Element {
    e.(classes := e.classes + {ActiveSection} - {Hidden})
  }

  /** `document.getElementById`: the first element, in document order, with
      that id. An element without an id attribute has id "", and looking up
      "" finds nothing. */
  function FindById(page: seq<Element>, id: string): (r: Option<nat>)
    ensures r.Some? ==> r.value < |page| && page[r.value].id == id
    ensures r.Some? ==> forall j :: 0 <= j < r.value ==> page[j].id != id
    ensures r.None? <==> id == "" || forall j :: 0 <= j < |page| ==> page[j].id != id
  {
    if id == "" then None else IndexWhere(page, (e: Element) => e.id == id)
  }

  /** `showSection`: conceal every section, then reveal the element with the
      target id, if there is one. Only the two classes change. */
  function ShowSection(page: seq<Element>, sectionId: string): (r: seq<Element>)
    ensures |r| == |page|
    ensures forall i :: 0 <= i < |page| ==> r[i].tag == page[i].tag && r[i].id == page[i].id
    ensures forall i, c :: 0 <= i < |page| && c != ActiveSection && c != Hidden ==>
      (c in r[i].classes <==> c in page[i].classes)
    ensures forall i :: 0 <= i < |page| ==>
      if FindById(page, sectionId) == Some(i) then Shown(r[i])
      else if IsSection(page[i]) then Concealed(r[i])
      else r[i] == page[i]
  {
    var concealed := Map(page, (e: Element) => if IsSection(e) then Conceal(e) else e);
    assert forall i :: 0 <= i < |page| ==> concealed[i].id == page[i].id;
    assert FindById(concealed, sectionId) == FindById(page, sectionId) by {
      IndexWhereSameIds(page, concealed, sectionId);
    }
    match FindById(concealed, sectionId)
    case None => concealed
    case Some(k) => concealed[k := Reveal(concealed[k])]
  }

  /** Looking up an id only depends on the ids. */
  lemma {:induction false} IndexWhereSameIds(a: seq<Element>, b: seq<Element>, id: string)
    requires |a| == |b| && forall i :: 0 <= i < |a| ==> a[i].id == b[i].id
    ensures FindById(a, id) == FindById(b, id)
    decreases |a|
  {
    if |a| > 0 {
      IndexWhereSameIds(a[1..], b[1..], id);
    }
  }

  /** When the target is a section, exactly that section is visible
      afterwards. */
  lemma ExactlyTheTargetSectionIsShown(page: seq<Element>, sectionId: string, k: nat)
    requires FindById(page, sectionId) == Some(k) && IsSection(page[k])
    ensures var r := ShowSection(page, sectionId);
      forall i :: 0 <= i < |page| && IsSection(page[i]) ==> (Shown(r[i]) <==> i == k)
  {
  }

  /** When no element has the target id, every section is hidden. */
  lemma UnknownTargetHidesAll(page: seq<Element>, sectionId: string)
    requires forall i :: 0 <= i < |page| ==> page[i].id != sectionId
    ensures var r := ShowSection(page, sectionId);
      forall i :: 0 <= i < |page| && IsSection(page[i]) ==> Concealed(r[i])
  {
  }

  /** Showing the same section twice is showing it once. */
  lemma ShowSectionIdempotent(page: seq<Element>, sectionId: string)
    ensures ShowSection(ShowSection(page, sectionId), sectionId) == ShowSection(page, sectionId)
  {
    var once := ShowSection(page, sectionId);
    var twice := ShowSection(once, sectionId);
    IndexWhereSameIds(page, once, sectionId);
    forall i | 0 <= i < |page| ensures twice[i] == once[i] {
      if FindById(page, sectionId) != Some(i) && IsSection(page[i]) {
        assert once[i].classes == twice[i].classes;
      }
      if FindById(page, sectionId) == Some(i) {
        assert once[i].classes == twice[i].classes;
      }
    }
  }

  // ---------------------------------------------------------- the navbar

  /** A navbar link: its `data-section` attribute, if any, and classes. */
  datatype NavLink = NavLink(dataSection: Option<string>, classes: set<string>)

  /** `this.dataset.section + 'Section'`; a missing attribute reads as the
      string "undefined". */
  function SectionIdFor(link: NavLink): (id: string)
    ensures |id| >= 7 && id[|id| - 7..] == "Section"
    ensures id[..|id| - 7] == link.dataSection.GetOr("undefined")
  {
    link.dataSection.GetOr("undefined") + "Section"
  }

  /** Two links route to the same section only when their `data-section`
      values are equal, reading a missing attribute as "undefined". */
  lemma SectionIdInjective(a: NavLink, b: NavLink)
    requires SectionIdFor(a) == SectionIdFor(b)
    ensures a.dataSection.GetOr("undefined") == b.dataSection.GetOr("undefined")
  {
  }

  /** The click handler: show the link's section and move `active` to the
      clicked link. */
  function NavClick(page: seq<Element>, links: seq<NavLink>, k: nat): (r: (seq<Element>, seq<NavLink>))
    requires k < |links|
    ensures r.0 == ShowSection(page, SectionIdFor(links[k]))
    ensures |r.1| == |links|
    ensures forall i :: 0 <= i < |links| ==> r.1[i].dataSection == links[i].dataSection
    ensures forall i, c :: 0 <= i < |links| && c != ActiveLink ==> (c in r.1[i].classes <==> c in links[i].classes)
    ensures forall i :: 0 <= i < |links| ==> (ActiveLink in r.1[i].classes <==> i == k)
  {
    var cleared := Map(links, (l: NavLink) => l.(classes := l.classes - {ActiveLink}));
    (ShowSection(page, SectionIdFor(links[k])), cleared[k := cleared[k].(classes := cleared[k].classes + {ActiveLink})])
  }

  // ------------------------------------------------------ loader dispatch

  /** The data loaders a dashboard registers on `window`. */
  datatype Loader =
    | LoadJobOffers | LoadMyApplications | LoadProfile | LoadCompanies
    | LoadMyJobOffers | CreateNewOffer | LoadCompanyProfile

  /** The click handler's if-chain: by page path, then by section id, and
      only when that loader is registered. */
  function LoaderFor(pathname: string, sectionId: string, registered: set<Loader>): (r: Option<Loader>)
    ensures r.Some? ==> r.value in registered
    ensures r.Some? && Contains(pathname, "candidato") ==>
      sectionId in CandidateLoaders && CandidateLoaders[sectionId] == r.value
    ensures r.Some? && !Contains(pathname, "candidato") ==>
      Contains(pathname, "empresa") && sectionId in CompanyLoaders && CompanyLoaders[sectionId] == r.value
  {
    if Contains(pathname, "candidato") then
      if sectionId == "offersSection" && LoadJobOffers in registered then Some(LoadJobOffers)
      else if sectionId == "myApplicationsSection" && LoadMyApplications in registered then Some(LoadMyApplications)
      else if sectionId == "profileSection" && LoadProfile in registered then Some(LoadProfile)
      else if sectionId == "companiesSection" && LoadCompanies in registered then Some(LoadCompanies)
      else None
    else if Contains(pathname, "empresa") then
      if sectionId == "myOffersSection" && LoadMyJobOffers in registered then Some(LoadMyJobOffers)
      else if sectionId == "newOfferSection" && CreateNewOffer in registered then Some(CreateNewOffer)
      else if sectionId == "profileSection" && LoadCompanyProfile in registered then Some(LoadCompanyProfile)
      else None
    else None
  }

  /** The candidate dashboard's sections and their loaders. */
  const CandidateLoaders: map<string, Loader> := map[
    "offersSection" := LoadJobOffers,
    "myApplicationsSection" := LoadMyApplications,
    "profileSection" := LoadProfile,
    "companiesSection" := LoadCompanies]

  /** The company dashboard's sections and their loaders. */
  const CompanyLoaders: map<string, Loader> := map[
    "myOffersSection" := LoadMyJobOffers,
    "newOfferSection" := CreateNewOffer,
    "profileSection" := LoadCompanyProfile]

  function Lookup(table: map<string, Loader>, sectionId: string, registered: set<Loader>): Option<Loader> {
    if sectionId in table && table[sectionId] in registered then Some(table[sectionId]) else None
  }

  /** The if-chain is a table lookup: the page path picks the table (the
      candidate one first), and a section outside it, or whose loader is
      not registered, loads nothing. */
  lemma LoaderForIsTableLookup(pathname: string, sectionId: string, registered: set<Loader>)
    ensures LoaderFor(pathname, sectionId, registered) ==
      if Contains(pathname, "candidato") then Lookup(CandidateLoaders, sectionId, registered)
      else if Contains(pathname, "empresa") then Lookup(CompanyLoaders, sectionId, registered)
      else None
  {
  }
}

=== FILE: seqs.dfy ===
/** Sequence helpers shared by the store operations: the order-preserving
    filter (JavaScript's `Array.prototype.filter`), the element-wise map,
    the first-match search (`Array.prototype.find`) and the subsequence
    relation those results are specified against. */
module Seqs {
  import opened Wrappers

  /** `sub` is obtained from `xs` by deleting elements, keeping the order of the rest. */
  predicate IsSubsequence<T(==)>(sub: seq<T>, xs: seq<T>)
    decreases |xs|
  {
    |sub| == 0
    || (|xs| > 0
        && (IsSubsequence(sub, xs[1..])
            || (sub[0] == xs[0] && IsSubsequence(sub[1..], xs[1..]))))
  }

  lemma {:induction false} IsSubsequenceOfItself<T>(xs: seq<T>)
    ensures IsSubsequence(xs, xs)
  {
    if |xs| > 0 {
      IsSubsequenceOfItself(xs[1..]);
    }
  }

  /** The elements of `xs` that satisfy `keep`, in their original order. */
  function Filter<T(==,!new)>(xs: seq<T>, keep: T -> bool): (r: seq<T>)
    ensures IsSubsequence(r, xs)
    ensures forall x :: x in r <==> x in xs && keep(x)
    decreases |xs|
  {
    if |xs| == 0 then []
    else
      assert xs == [xs[0]] + xs[1..];
      var rest := Filter(xs[1..], keep);
      if keep(xs[0]) then
        assert ([xs[0]] + rest)[1..] == rest;
        [xs[0]] + rest
      else rest
  }

  /** Filtering keeps every copy of a kept element. */
  lemma {:induction false} FilterKeepsCounts<T(!new)>(xs: seq<T>, keep: T -> bool)
    ensures forall x :: keep(x) ==> multiset(Filter(xs, keep))[x] == multiset(xs)[x]
    decreases |xs|
  {
    if |xs| > 0 {
      FilterKeepsCounts(xs[1..], keep);
      assert xs == [xs[0]] + xs[1..];
      if keep(xs[0]) {
        assert Filter(xs, keep) == [xs[0]] + Filter(xs[1..], keep);
      }
    }
  }

  /** `f` applied to every element of `xs`. */
  function Map<A, B>(xs: seq<A>, f: A -> B): (r: seq<B>)
    ensures |r| == |xs|
    ensures forall i :: 0 <= i < |xs| ==> r[i] == f(xs[i])
  {
    seq(|xs|, i requires 0 <= i < |xs| => f(xs[i]))
  }

  /** The head of a filtered sequence is the first element that passes. */
  lemma {:induction false} FilterHead<T(!new)>(xs: seq<T>, keep: T -> bool)
    ensures |Filter(xs, keep)| > 0 <==> IndexWhere(xs, keep).Some?
    ensures IndexWhere(xs, keep).Some? ==> Filter(xs, keep)[0] == xs[IndexWhere(xs, keep).value]
    decreases |xs|
  {
    if |xs| > 0 {
      FilterHead(xs[1..], keep);
    }
  }

  /** The index of the first element of `xs` that satisfies `p`. */
  function IndexWhere<T>(xs: seq<T>, p: T -> bool): (r: Option<nat>)
    ensures r.Some? ==> r.value < |xs| && p(xs[r.value])
    ensures r.Some? ==> forall j :: 0 <= j < r.value ==> !p(xs[j])
    ensures r.None? <==> forall j :: 0 <= j < |xs| ==> !p(xs[j])
    decreases |xs|
  {
    if |xs| == 0 then None
    else if p(xs[0]) then Some(0)
    else
      match IndexWhere(xs[1..], p)
      case None => None
      case Some(k) => Some(k + 1)
  }

  /** The first element of `xs` that satisfies `p` (`Array.prototype.find`). */
  function Find<T>(xs: seq<T>, p: T -> bool): (r: Option<T>)
    ensures r.None? <==> forall j :: 0 <= j < |xs| ==> !p(xs[j])
    ensures r.Some? ==> exists i :: 0 <= i < |xs| && xs[i] == r.value && p(xs[i])
                                    && forall j :: 0 <= j < i ==> !p(xs[j])
  {
    match IndexWhere(xs, p)
    case None => None
    case Some(i) => Some(xs[i])
  }

  /** Filtering distributes over concatenation. */
  lemma {:induction false} FilterConcat<T(!new)>(a: seq<T>, b: seq<T>, keep: T -> bool)
    ensures Filter(a + b, keep) == Filter(a, keep) + Filter(b, keep)
    decreases |a|
  {
    if |a| == 0 {
      assert a + b == b;
    } else {
      assert (a + b)[1..] == a[1..] + b;
      FilterConcat(a[1..], b, keep);
    }
  }

  /** Mapping distributes over concatenation. */
  lemma MapConcat<A, B>(a: seq<A>, b: seq<A>, f: A -> B)
    ensures Map(a + b, f) == Map(a, f) + Map(b, f)
  {
  }

  /** Filtering twice is filtering once by the conjunction. */
  lemma {:induction false} FilterFilter<T(!new)>(xs: seq<T>, f: T -> bool, g: T -> bool, h: T -> bool)
    requires forall x :: h(x) == (f(x) && g(x))
    ensures Filter(Filter(xs, f), g) == Filter(xs, h)
    decreases |xs|
  {
    if |xs| > 0 {
      FilterFilter(xs[1..], f, g, h);
    }
  }

  /** Two predicates that agree on the elements of `xs` filter it alike. */
  lemma {:induction false} FilterCongruent<T(!new)>(xs: seq<T>, f: T -> bool, g: T -> bool)
    requires forall x :: x in xs ==> f(x) == g(x)
    ensures Filter(xs, f) == Filter(xs, g)
    decreases |xs|
  {
    if |xs| > 0 {
      assert forall x :: x in xs[1..] ==> x in xs;
      FilterCongruent(xs[1..], f, g);
    }
  }

  /** A predicate that holds of every element keeps the whole sequence. */
  lemma {:induction false} FilterKeepsAll<T(!new)>(xs: seq<T>, keep: T -> bool)
    requires forall x :: x in xs ==> keep(x)
    ensures Filter(xs, keep) == xs
    decreases |xs|
  {
    if |xs| > 0 {
      assert forall x :: x in xs[1..] ==> x in xs;
      FilterKeepsAll(xs[1..], keep);
      assert xs == [xs[0]] + xs[1..];
    }
  }
}

=== FILE: store.dfy ===
/** The records the dashboards read and write, and the three collections of
    the REST backend (`usuarios`, `ofertas`, `postulaciones`) as one
    in-memory value.

    Reads are the backend's equality filters (`ofertas?estado=activa`) over
    a collection, in collection order. Writes address records by id:
    PATCH merges fields into every record with that id, PUT replaces each
    of them, DELETE removes them all; when no record has the id the backend
    answers 404 and nothing changes. The backend itself acts on the first
    record with the id only; the two agree whenever ids are unique, which
    the backend keeps because it refuses to create a record under an id
    already taken. Fresh ids for created records are supplied by the
    caller. */
module Store {
  import opened Wrappers
  import opened Seqs
  import Formats

  const RoleCandidate: string := "candidato"
  const RoleCompany: string := "empresa"

  const OfferActive: string := "activa"
  const OfferClosed: string := "cerrada"

  const Pending: string := "Pendiente"
  const InReview: string := "En Revisión"
  const Accepted: string := "Aceptado"
  const Rejected: string := "Rechazado"

  /** A user record. JSON objects are open, so every role-specific field
      may be absent; registration fills in the ones of the chosen role. */
  datatype User = User(
    id: string,
    email: string,
    password: string,
    rol: string,
    // candidate profile
    nombreCompleto: Option<string>,
    cvUrl: Option<string>,
    habilidades: Option<seq<string>>,
    experienciaLaboral: Option<seq<Formats.Experience>>,
    // company profile
    nombreEmpresa: Option<string>,
    logoUrl: Option<string>,
    sector: Option<string>,
    descripcion: Option<string>)

  datatype Offer = Offer(
    id: string,
    titulo: string,
    descripcion: string,
    requisitos: seq<string>,
    salario: string,
    modalidad: string,
    idEmpresa: string,
    estado: string)

  datatype Application = Application(
    id: string,
    idOferta: string,
    idCandidato: string,
    fechaPostulacion: string,
    estado: string)

  datatype Store = Store(usuarios: seq<User>, ofertas: seq<Offer>, postulaciones: seq<Application>)

  // ----------------------------------------------------------- invariants

  predicate UserIdsUnique(users: seq<User>) {
    forall i, j :: 0 <= i < j < |users| ==> users[i].id != users[j].id
  }

  predicate OfferIdsUnique(offers: seq<Offer>) {
    forall i, j :: 0 <= i < j < |offers| ==> offers[i].id != offers[j].id
  }

  predicate ApplicationIdsUnique(apps: seq<Application>) {
    forall i, j :: 0 <= i < j < |apps| ==> apps[i].id != apps[j].id
  }

  /** No candidate has applied twice to the same offer. */
  predicate OneApplicationPerPair(apps: seq<Application>) {
    forall i, j :: 0 <= i < j < |apps| ==>
      apps[i].idOferta != apps[j].idOferta || apps[i].idCandidato != apps[j].idCandidato
  }

  /** Any selection of applications with unique ids has unique ids. */
  lemma {:induction false} FilterKeepsApplicationIdsUnique(apps: seq<Application>, keep: Application -> bool)
    requires ApplicationIdsUnique(apps)
    ensures ApplicationIdsUnique(Filter(apps, keep))
  {
    if |apps| > 0 {
      var rest := apps[1..];
      assert ApplicationIdsUnique(rest) by {
        forall i, j | 0 <= i < j < |rest| ensures rest[i].id != rest[j].id {
          assert rest[i] == apps[i + 1] && rest[j] == apps[j + 1];
        }
      }
      FilterKeepsApplicationIdsUnique(rest, keep);
      var fr := Filter(rest, keep);
      if keep(apps[0]) {
        var r := [apps[0]] + fr;
        assert Filter(apps, keep) == r;
        forall i, j | 0 <= i < j < |r| ensures r[i].id != r[j].id {
          assert r[j] == fr[j - 1];
          if i == 0 {
            assert fr[j - 1] in rest;
            var k :| 0 <= k < |rest| && rest[k] == fr[j - 1];
            assert rest[k] == apps[k + 1];
          } else {
            assert r[i] == fr[i - 1];
          }
        }
      } else {
        assert Filter(apps, keep) == fr;
      }
    }
  }

  // ---------------------------------------------------------------- reads

  predicate HasUser(users: seq<User>, id: string) {
    exists i :: 0 <= i < |users| && users[i].id == id
  }

  predicate HasOffer(offers: seq<Offer>, id: string) {
    exists i :: 0 <= i < |offers| && offers[i].id == id
  }

  predicate HasApplication(apps: seq<Application>, id: string) {
    exists i :: 0 <= i < |apps| && apps[i].id == id
  }

  /** `postulaciones?idOferta=<offer>&idCandidato=<candidate>`. */
  function ApplicationsOf(apps: seq<Application>, offerId: string, candidateId: string): seq<Application> {
    Filter(apps, (a: Application) => a.idOferta == offerId && a.idCandidato == candidateId)
  }

  /** `postulaciones?idOferta=<offer>`. */
  function ApplicationsForOffer(apps: seq<Application>, offerId: string): seq<Application> {
    Filter(apps, (a: Application) => a.idOferta == offerId)
  }

  /** `ofertas?estado=activa`. */
  function ActiveOffers(offers: seq<Offer>): seq<Offer> {
    Filter(offers, (o: Offer) => o.estado == OfferActive)
  }

  /** `usuarios?rol=empresa`. */
  function Companies(users: seq<User>): seq<User> {
    Filter(users, (u: User) => u.rol == RoleCompany)
  }

  /** `usuarios?email=<email>`. */
  function UsersWithEmail(users: seq<User>, email: string): seq<User> {
    Filter(users, (u: User) => u.email == email)
  }

  // --------------------------------------------------------------- writes

  /** PATCH `ofertas/<id>` with `{ estado }`. */
  function PatchOfferEstado(offers: seq<Offer>, id: string, estado: string): (r: seq<Offer>)
    ensures |r| == |offers|
    ensures forall i :: 0 <= i < |r| ==> r[i] == if offers[i].id == id then offers[i].(estado := estado) else offers[i]
  {
    Map(offers, (o: Offer) => if o.id == id then o.(estado := estado) else o)
  }

  /** `after` is `before` with every offer of id `id` replaced by `record`
      and every other offer in place. */
  predicate OfferReplaced(before: seq<Offer>, after: seq<Offer>, id: string, record: Offer) {
    && |after| == |before|
    && forall i :: 0 <= i < |before| ==> after[i] == if before[i].id == id then record else before[i]
  }

  /** PUT `ofertas/<id>` with a whole new record. */
  function PutOffer(offers: seq<Offer>, id: string, record: Offer): (r: seq<Offer>)
    ensures OfferReplaced(offers, r, id, record)
  {
    Map(offers, (o: Offer) => if o.id == id then record else o)
  }

  /** DELETE `ofertas/<id>`. */
  function DeleteOfferRecord(offers: seq<Offer>, id: string): (r: seq<Offer>)
    ensures !HasOffer(r, id)
    ensures forall o :: o in r <==> o in offers && o.id != id
  {
    var r := Filter(offers, (o: Offer) => o.id != id);
    assert forall i :: 0 <= i < |r| ==> r[i] in r;
    r
  }

  /** PATCH `postulaciones/<id>` with `{ estado }`. */
  function PatchApplicationEstado(apps: seq<Application>, id: string, estado: string): (r: seq<Application>)
    ensures |r| == |apps|
    ensures forall i :: 0 <= i < |r| ==> r[i] == if apps[i].id == id then apps[i].(estado := estado) else apps[i]
  {
    Map(apps, (a: Application) => if a.id == id then a.(estado := estado) else a)
  }

  /** Survives DELETE `postulaciones/<id>`. */
  function ApplicationIdIsNot(id: string): Application -> bool {
    (a: Application) => a.id != id
  }

  /** DELETE `postulaciones/<id>`. */
  function DeleteApplicationRecord(apps: seq<Application>, id: string): seq<Application> {
    Filter(apps, ApplicationIdIsNot(id))
  }

  /** `after` is `before` with every record of id `id` replaced by `record`
      and every other record in place. */
  predicate UserReplaced(before: seq<User>, after: seq<User>, id: string, record: User) {
    && |after| == |before|
    && forall i :: 0 <= i < |before| ==> after[i] == if before[i].id == id then record else before[i]
  }

  /** PUT `usuarios/<id>` with a whole new record. */
  function PutUser(users: seq<User>, id: string, record: User): (r: seq<User>)
    ensures UserReplaced(users, r, id, record)
  {
    Map(users, (u: User) => if u.id == id then record else u)
  }
}

=== FILE: text.dfy ===
/** The string primitives the dashboards rely on, over `string` (`seq<char>`):
    `trim`, `toLowerCase`, `includes`, `indexOf`, `replace` of the first
    occurrence, `slice(0, -1)`, `split` on one character, `join`, and the
    decimal rendering of a number inside a template literal.

    Whitespace and case folding are ASCII only: `trim` removes space, tab,
    line feed, carriage return, vertical tab and form feed, and
    `toLowerCase` maps `A`..`Z` to `a`..`z`. */
module Text {
  import opened Wrappers

  // ---------------------------------------------------------------- trim

  predicate IsSpace(c: char) {
    c == ' ' || c == '\t' || c == '\n' || c == '\r' || c == '\U{000B}' || c == '\U{000C}'
  }

  /** `s` without its leading whitespace. */
  function TrimStart(s: string): string
    decreases |s|
  {
    if |s| > 0 && IsSpace(s[0]) then TrimStart(s[1..]) else s
  }

  /** `TrimStart` drops a run of whitespace from the front and stops at the
      first other character. */
  lemma {:induction false} TrimStartFacts(s: string)
    ensures var r := TrimStart(s);
      && |r| <= |s| && r == s[|s| - |r|..]
      && (forall i :: 0 <= i < |s| - |r| ==> IsSpace(s[i]))
      && (r == [] || !IsSpace(r[0]))
    decreases |s|
  {
    if |s| > 0 && IsSpace(s[0]) {
      TrimStartFacts(s[1..]);
      var r := TrimStart(s);
      assert s[1..][|s| - 1 - |r|..] == s[|s| - |r|..];
      forall i | 1 <= i < |s| - |r| ensures IsSpace(s[i]) {
        assert s[1..][i - 1] == s[i];
      }
    }
  }

  /** `s` without its trailing whitespace. */
  function TrimEnd(s: string): string
    decreases |s|
  {
    if |s| > 0 && IsSpace(s[|s| - 1]) then TrimEnd(s[..|s| - 1]) else s
  }

  /** `TrimEnd` drops a run of whitespace from the back and stops at the
      last other character. */
  lemma {:induction false} TrimEndFacts(s: string)
    ensures var r := TrimEnd(s);
      && |r| <= |s| && r == s[..|r|]
      && (forall i :: |r| <= i < |s| ==> IsSpace(s[i]))
      && (r == [] || !IsSpace(r[|r| - 1]))
    decreases |s|
  {
    if |s| > 0 && IsSpace(s[|s| - 1]) {
      TrimEndFacts(s[..|s| - 1]);
      var r := TrimEnd(s);
      assert s[..|s| - 1][..|r|] == s[..|r|];
      forall i | |r| <= i < |s| - 1 ensures IsSpace(s[i]) {
        assert s[..|s| - 1][i] == s[i];
      }
    }
  }

  /** Neither end of `s` is whitespace. */
  predicate IsTrimmed(s: string) {
    s == [] || (!IsSpace(s[0]) && !IsSpace(s[|s| - 1]))
  }

  /** `String.prototype.trim`. */
  function Trim(s: string): (r: string)
    ensures IsTrimmed(r)
    ensures IsTrimmed(s) ==> r == s
  {
    var t := TrimStart(s);
    TrimStartFacts(s);
    TrimEndFacts(t);
    var r := TrimEnd(t);
    assert r != [] ==> r[0] == t[0];
    r
  }

  /** Trimming only removes characters, and leaves nothing exactly when the
      string is all whitespace. */
  lemma TrimFacts(s: string)
    ensures forall c :: c in Trim(s) ==> c in s
    ensures Trim(s) == [] <==> forall i :: 0 <= i < |s| ==> IsSpace(s[i])
  {
    var t := TrimStart(s);
    TrimStartFacts(s);
    TrimEndFacts(t);
    SuffixChars(s, t);
    PrefixChars(t, TrimEnd(t));
  }

  lemma SuffixChars(s: string, t: string)
    requires |t| <= |s| && t == s[|s| - |t|..]
    ensures forall c :: c in t ==> c in s
  {
    forall c | c in t ensures c in s {
      var i :| 0 <= i < |t| && t[i] == c;
      assert s[|s| - |t| + i] == c;
    }
  }

  lemma PrefixChars(t: string, r: string)
    requires |r| <= |t| && r == t[..|r|]
    ensures forall c :: c in r ==> c in t
  {
    forall c | c in r ensures c in t {
      var i :| 0 <= i < |r| && r[i] == c;
      assert t[i] == c;
    }
  }

  /** A leading whitespace character does not survive trimming. */
  lemma TrimLeadingSpace(c: char, s: string)
    requires IsSpace(c)
    ensures Trim([c] + s) == Trim(s)
  {
    assert ([c] + s)[1..] == s;
  }

  // -------------------------------------------------------------- case

  function LowerChar(c: char): char {
    if 'A' <= c <= 'Z' then (c as int + 32) as char else c
  }

  /** `String.prototype.toLowerCase`, ASCII letters only. */
  function ToLower(s: string): (r: string)
    ensures |r| == |s|
    ensures forall i :: 0 <= i < |s| ==> r[i] == LowerChar(s[i])
  {
    seq(|s|, i requires 0 <= i < |s| => LowerChar(s[i]))
  }

  // ---------------------------------------------------------- searching

  predicate StartsWith(s: string, prefix: string) {
    |prefix| <= |s| && s[..|prefix|] == prefix
  }

  /** `needle` occurs in `s` starting at offset `i`. */
  predicate OccursAt(s: string, needle: string, i: int) {
    0 <= i && i + |needle| <= |s| && s[i..i + |needle|] == needle
  }

  /** `String.prototype.includes`, scanning from the left. */
  predicate Contains(s: string, needle: string)
    decreases |s|
  {
    StartsWith(s, needle) || (|s| > 0 && Contains(s[1..], needle))
  }

  lemma OccursShift(s: string, needle: string)
    requires |s| > 0
    ensures OccursAt(s, needle, 0) <==> StartsWith(s, needle)
    ensures forall j :: 0 <= j ==> (OccursAt(s[1..], needle, j) <==> OccursAt(s, needle, j + 1))
  {
    forall j | 0 <= j && OccursAt(s, needle, j + 1)
      ensures OccursAt(s[1..], needle, j)
    {
      assert s[1..][j..j + |needle|] == s[j + 1..j + 1 + |needle|];
    }
    forall j | OccursAt(s[1..], needle, j)
      ensures OccursAt(s, needle, j + 1)
    {
      assert s[1..][j..j + |needle|] == s[j + 1..j + 1 + |needle|];
    }
  }

  lemma OccursShiftAt(s: string, needle: string, j: int)
    requires |s| > 0 && 1 <= j
    ensures OccursAt(s, needle, j) <==> OccursAt(s[1..], needle, j - 1)
  {
    OccursShift(s, needle);
  }

  /** The scan finds `needle` exactly when it occurs somewhere in `s`. */
  lemma {:induction false} ContainsIffOccurs(s: string, needle: string)
    ensures Contains(s, needle) <==> exists i :: OccursAt(s, needle, i)
    decreases |s|
  {
    if |s| == 0 {
      if exists i :: OccursAt(s, needle, i) {
        var i :| OccursAt(s, needle, i);
        assert needle == [];
        assert StartsWith(s, needle);
      }
      if Contains(s, needle) {
        assert OccursAt(s, needle, 0);
      }
    } else {
      OccursShift(s, needle);
      ContainsIffOccurs(s[1..], needle);
      if exists i :: OccursAt(s, needle, i) {
        var i :| OccursAt(s, needle, i);
        if i > 0 {
          assert OccursAt(s[1..], needle, i - 1);
        }
      }
      if StartsWith(s, needle) {
        assert OccursAt(s, needle, 0);
      }
      if Contains(s[1..], needle) {
        var j :| OccursAt(s[1..], needle, j);
        assert OccursAt(s, needle, j + 1);
      }
    }
  }

  /** `String.prototype.indexOf`: the first offset at which `needle` occurs. */
  function IndexOf(s: string, needle: string): (r: Option<nat>)
    ensures r.Some? ==> OccursAt(s, needle, r.value)
    ensures r.Some? ==> forall j :: 0 <= j < r.value ==> !OccursAt(s, needle, j)
    ensures r.None? ==> forall j :: !OccursAt(s, needle, j)
    decreases |s|
  {
    if StartsWith(s, needle) then
      assert s[0..|needle|] == s[..|needle|];
      Some(0)
    else if |s| == 0 then None
    else
      OccursShift(s, needle);
      match IndexOf(s[1..], needle)
      case None =>
        assert forall j :: !OccursAt(s, needle, j) by {
          forall j | 1 <= j ensures !OccursAt(s, needle, j) {
            OccursShiftAt(s, needle, j);
          }
        }
        None
      case Some(k) =>
        assert forall j :: 0 <= j < k + 1 ==> !OccursAt(s, needle, j) by {
          forall j | 1 <= j < k + 1 ensures !OccursAt(s, needle, j) {
            OccursShiftAt(s, needle, j);
          }
        }
        OccursShiftAt(s, needle, k + 1);
        Some(k + 1)
  }

  /** `s.replace(needle, '')`: the first occurrence of `needle` removed, if there is one. */
  function RemoveFirst(s: string, needle: string): (r: string)
    ensures IndexOf(s, needle).None? ==> r == s
    ensures IndexOf(s, needle).Some? ==> |r| == |s| - |needle|
    ensures StartsWith(s, needle) ==> r == s[|needle|..]
  {
    match IndexOf(s, needle)
    case None => s
    case Some(i) => s[..i] + s[i + |needle|..]
  }

  /** `s.slice(0, -1)`: everything but the last character ("" stays ""). */
  function DropLast(s: string): (r: string)
    ensures |s| > 0 ==> s == r + [s[|s| - 1]]
    ensures |s| == 0 ==> r == []
  {
    if |s| == 0 then [] else s[..|s| - 1]
  }

  // ----------------------------------------------------- split and join

  /** `String.prototype.split` with a one-character separator: the pieces
      between separators, always at least one. */
  function Split(s: string, sep: char): (pieces: seq<string>)
    ensures |pieces| >= 1
    ensures forall i :: 0 <= i < |pieces| ==> sep !in pieces[i]
    decreases |s|
  {
    if |s| == 0 then [""]
    else
      var rest := Split(s[1..], sep);
      if s[0] == sep then [""] + rest
      else [[s[0]] + rest[0]] + rest[1..]
  }

  /** `Array.prototype.join`. */
  function Join(xs: seq<string>, sep: string): string
    decreases |xs|
  {
    if |xs| == 0 then ""
    else if |xs| == 1 then xs[0]
    else xs[0] + sep + Join(xs[1..], sep)
  }

  lemma JoinCons(x: string, xs: seq<string>, sep: string)
    requires |xs| >= 1
    ensures Join([x] + xs, sep) == x + sep + Join(xs, sep)
  {
    assert ([x] + xs)[1..] == xs;
  }

  /** A string without the separator is a single piece. */
  lemma {:induction false} SplitNoSep(s: string, sep: char)
    requires sep !in s
    ensures Split(s, sep) == [s]
    decreases |s|
  {
    if |s| > 0 {
      assert sep !in s[1..];
      SplitNoSep(s[1..], sep);
      assert [s[0]] + s[1..] == s;
    }
  }

  /** A character other than the separator joins the first piece. */
  lemma SplitCons(c: char, s: string, sep: char)
    requires c != sep
    ensures Split([c] + s, sep) == [[c] + Split(s, sep)[0]] + Split(s, sep)[1..]
  {
    assert ([c] + s)[1..] == s;
  }

  /** Every piece is made of characters of the text. */
  lemma {:induction false} SplitChars(s: string, sep: char)
    ensures forall p, c :: p in Split(s, sep) && c in p ==> c in s
    decreases |s|
  {
    if |s| > 0 {
      SplitChars(s[1..], sep);
      var rest := Split(s[1..], sep);
      if s[0] != sep {
        forall c | c in [s[0]] + rest[0] ensures c in s {
          if c != s[0] {
            assert rest[0] in rest;
          }
        }
      }
    }
  }

  /** Splitting at a separator splits the two sides independently. */
  lemma {:induction false} SplitConcat(a: string, b: string, sep: char)
    ensures Split(a + [sep] + b, sep) == Split(a, sep) + Split(b, sep)
    decreases |a|
  {
    if |a| == 0 {
      assert a + [sep] + b == [sep] + b;
      assert ([sep] + b)[1..] == b;
    } else {
      assert a + [sep] + b == [a[0]] + (a[1..] + [sep] + b);
      SplitConcat(a[1..], b, sep);
      assert a == [a[0]] + a[1..];
      if a[0] == sep {
        assert ([a[0]] + (a[1..] + [sep] + b))[1..] == a[1..] + [sep] + b;
      } else {
        SplitCons(a[0], a[1..] + [sep] + b, sep);
        SplitCons(a[0], a[1..], sep);
      }
    }
  }

  /** Joining the pieces with the separator gives back the string. */
  lemma {:induction false} JoinSplit(s: string, sep: char)
    ensures Join(Split(s, sep), [sep]) == s
    decreases |s|
  {
    if |s| > 0 {
      var rest := Split(s[1..], sep);
      JoinSplit(s[1..], sep);
      if s[0] == sep {
        JoinCons("", rest, [sep]);
        assert s == [sep] + s[1..];
      } else if |rest| == 1 {
        assert s == [s[0]] + s[1..];
      } else {
        JoinCons([s[0]] + rest[0], rest[1..], [sep]);
        JoinCons(rest[0], rest[1..], [sep]);
        assert rest == [rest[0]] + rest[1..];
        assert s == [s[0]] + s[1..];
      }
    }
  }

  // ------------------------------------------------------------ numbers

  /** The character of decimal digit `d`. */
  function DigitChar(d: nat): (c: char)
    requires d < 10
    ensures '0' <= c <= '9'
    ensures c as int - '0' as int == d
  {
    ('0' as int + d) as char
  }

  /** The decimal digits of `n`, as a template literal `${n}` renders it. */
  function NatToString(n: nat): (s: string)
    ensures |s| >= 1
    ensures forall i :: 0 <= i < |s| ==> '0' <= s[i] <= '9'
    ensures |s| > 1 ==> s[0] != '0'
    decreases n
  {
    if n < 10 then [DigitChar(n)] else NatToString(n / 10) + [DigitChar(n % 10)]
  }

  /** The value of a string of decimal digits. */
  function DigitsValue(s: string): nat
    requires forall i :: 0 <= i < |s| ==> '0' <= s[i] <= '9'
    decreases |s|
  {
    if |s| == 0 then 0
    else DigitsValue(s[..|s| - 1]) * 10 + (s[|s| - 1] as int - '0' as int)
  }

  /** Appending a digit shifts the value one decimal place. */
  lemma DigitsValueSnoc(s: string, c: char)
    requires forall i :: 0 <= i < |s| ==> '0' <= s[i] <= '9'
    requires '0' <= c <= '9'
    ensures DigitsValue(s + [c]) == DigitsValue(s) * 10 + (c as int - '0' as int)
  {
    assert (s + [c])[..|s|] == s;
  }

  /** Reading back the rendered digits gives the number. */
  lemma {:induction false} NatToStringRoundTrip(n: nat)
    ensures DigitsValue(NatToString(n)) == n
    decreases n
  {
    var s := NatToString(n);
    if n >= 10 {
      var front := NatToString(n / 10);
      NatToStringRoundTrip(n / 10);
      assert s == front + [DigitChar(n % 10)];
      DigitsValueSnoc(front, DigitChar(n % 10));
    }
  }
}

=== FILE: wrappers.dfy ===
/** Wrappers used across the model: an optional value
    (a lookup that may find nothing, a JSON field that may be absent) and
    a result that carries either a value or an error message. */
module Wrappers {

  datatype Option<+T> = None | Some(value: T) {

    /** The wrapped value, or `default` when there is none (JavaScript's `x || default`
        for values that are present exactly when they are truthy). */
    function GetOr(default: T): T {
      match this
      case Some(v) => v
      case None => default
    }
  }

  datatype Result<+T, +E> = Success(value: T) | Failure(error: E)
}
